=== FILE: README.md ===
# PDF/A preflight core, modelled in Dafny

This project models the PDF/A-1 conformance checks of the Apache PDFBox
`preflight` module (the allenai fork), plus three content-stream operator
handlers. Each check is a pure function, or one method with a loop, over an
immutable model of the parsed PDF object graph. The graph's COS objects are
null, booleans, integers, reals, names, strings, arrays, dictionaries,
streams and indirect references resolved through an object pool.

A check returns an `Outcome`, which has three parts:

- the error codes it appends to the preflight context, in order;
- a trace of the sub-validations it hands to other processes
  (`ContextHelper.validateElement`, the popup validator, the colour-space
  helpers, the content-stream replay);
- its result: a value, or the exception that ends the run.

The files are:

- `cos.dfy` (`Cos`): the object model and the typed accessors the checks use.
  It covers `getItem` and `getDictionaryObject`, the one-level resolving
  `COSUtils` helpers, `getInt` with Java's 32-bit narrowing, and
  `getNameAsString`. A stream counts as a dictionary everywhere, because
  `COSStream` extends `COSDictionary`.
- `preflight.dfy` (`Preflight`): the error codes, trace events and outcomes,
  and the sequencing of checks that may throw.
- `trailer.dfy` (`TrailerValidation`): the trailer and cross-reference
  consistency process. It covers trailer keys and types (section 7.5.5 of
  ISO 32000-1, section 6.1.3 of ISO 19005-1), the linearization dictionary
  (Annex F.2 of ISO 32000-1), the choice of first and last trailer, and the
  ID comparison.
- `annotation.dfy` (`AnnotationValidation`): the seven checks common to all
  annotations (section 6.5.3 of ISO 19005-1).
- `page.dfy` (`PageValidation`): the single-page process. It holds the
  ordered sub-checks, the transparency-group ban (section 6.4 of ISO 19005-1),
  and the colour-space, thumbnail and content-stream errors.
- `pagetree.dfy` (`PageTreeValidation`): the page-tree process. It holds the
  catalog and `/Pages` guards and the page loop with its current-page
  bookkeeping.
- `uriaction.dfy` (`UriActionValidation`): the URI action check.
- `operators.dfy` (`ContentOperators`): the `"` operator (section 9.4.3 of
  ISO 32000-1), the colour-setting operators (section 8.6.8), and BDC
  (section 14.6). The operators' `getName` values are the constants
  `ShowTextLineAndSpaceName` (the single character `"`) and
  `BeginMarkedContentName` (`BDC`).

Three facts about the code shape the model:

- **ID comparison.** `compareIds` checks each component of the first ID for
  some equal string in the last ID
  (`TrailerValidationProcess.java:191-211`). Duplicates are not counted, so
  the comparison is set containment, first in last.
- **Popup chains.** `checkPopup` has no cycle guard
  (`AnnotationValidator.java:220-236`): it simply calls the popup's own
  validator. Here that validator's outcome (errors, trace, answer or
  exception) is a parameter.
- **The 1.4 path.** The code passes a new, empty `COSDocument` to
  `compareIds` (`TrailerValidationProcess.java:91-97`). An ID entry given as
  an indirect reference therefore never resolves there. Whenever both
  trailers carry an ID and either is a reference, the IDs read as
  inconsistent, and the model keeps this (`IndirectIdIn14PathMismatches`).

## Model

| member | source | states |
|---|---|---|
| TrailerValidation.RequiredEntry | preflight/src/main/java/org/allenai/pdfbox/preflight/process/TrailerValidationProcess.java:274-324 | A mandatory trailer key yields its own missing-key error exactly when it is absent. It yields one type error exactly when it is present with the wrong type, and nothing otherwise. |
| TrailerValidation.OptionalEntry | preflight/src/main/java/org/allenai/pdfbox/preflight/process/TrailerValidationProcess.java:326-344 | An optional key (Prev, Info) yields one type error exactly when it is present with the wrong type. |
| TrailerValidation.CheckMainTrailer | preflight/src/main/java/org/allenai/pdfbox/preflight/process/TrailerValidationProcess.java:227-345 | The trailer produces no error iff all of these hold: its keys are all names; ID, Size and Root are present as array, integer and dictionary; there is no Encrypt; Prev and Info have their types. A non-name key gives exactly one key-invalid error and nothing else. The check never reports trailer or ID-consistency errors, and reports at most six errors. |
| TrailerValidation.TrailerErrorsByKey | preflight/src/main/java/org/allenai/pdfbox/preflight/process/TrailerValidationProcess.java:274-324 | With name keys only, each of missing ID, Size and Root has its own error iff that key is absent. Encrypt is reported iff present. A type error appears iff some typed key is mistyped. |
| TrailerValidation.TypeErrorsPerKey | preflight/src/main/java/org/allenai/pdfbox/preflight/process/TrailerValidationProcess.java:281-344 | The number of type errors equals the number of present-but-mistyped keys: one error per key, never aggregated. |
| TrailerValidation.MissingIdAndSizeReportedSeparately | preflight/src/main/java/org/allenai/pdfbox/preflight/process/TrailerValidationProcess.java:274-299 | A trailer missing both ID and Size gets two distinct errors, the ID error first. |
| TrailerValidation.LinearizedIndex | preflight/src/main/java/org/allenai/pdfbox/preflight/process/TrailerValidationProcess.java:359-368 | The scan over the object list stops at the first linearization dictionary. It finds none iff no object from the start position is one. |
| TrailerValidation.LinearizedDictionary | preflight/src/main/java/org/allenai/pdfbox/preflight/process/TrailerValidationProcess.java:354-369 | The result is the first object in list order that is a dictionary (or stream) with the Linearized key, and none iff there is no such object. |
| TrailerValidation.CheckLinearizedDictionary | preflight/src/main/java/org/allenai/pdfbox/preflight/process/TrailerValidationProcess.java:377-428 | There is no error iff all keys are names and L, H, O, E, N and T are all present. A non-name key gives one key-invalid error. Otherwise any number of missing keys gives exactly one dict-invalid error. |
| TrailerValidation.ScanLastFinds | preflight/src/main/java/org/allenai/pdfbox/preflight/process/TrailerValidationProcess.java:191-206 | On string IDs the inner loop answers whether the component occurs in the last ID. |
| TrailerValidation.ContainsAllIsInclusion | preflight/src/main/java/org/allenai/pdfbox/preflight/process/TrailerValidationProcess.java:190-213 | On string IDs the loop answers exactly whether every component of the first ID occurs in the last: one-directional set containment. |
| TrailerValidation.ContainsAllIgnoresOrder | preflight/src/main/java/org/allenai/pdfbox/preflight/process/TrailerValidationProcess.java:190-213 | Permuting either ID array never changes the comparison's answer. |
| TrailerValidation.CompareIds | preflight/src/main/java/org/allenai/pdfbox/preflight/process/TrailerValidationProcess.java:170-219 | The comparison is true when either ID is absent. When both are present and either does not resolve to an array, it is false, with no exception and before any cast. When both ID arrays hold strings, it is true exactly when both IDs resolve to arrays and the first is contained in the last. Any exception it raises is a runtime failure from the cast to a string. |
| TrailerValidation.ContainsAllThrowsOnlyRuntime | preflight/src/main/java/org/allenai/pdfbox/preflight/process/TrailerValidationProcess.java:191-212 | The outer comparison loop can only fail with the runtime cast failure. |
| TrailerValidation.ScanLastThrowsOnlyRuntime | preflight/src/main/java/org/allenai/pdfbox/preflight/process/TrailerValidationProcess.java:194-206 | The inner comparison loop can only fail with the runtime cast failure. |
| TrailerValidation.CheckFirstAgainstLast | preflight/src/main/java/org/allenai/pdfbox/preflight/process/TrailerValidationProcess.java:93-98 | The first trailer's own errors come first. At most one ID-consistency error follows, and on string IDs it is present iff the IDs disagree. Without an ID in either trailer, only the first trailer's errors are reported. With both IDs present and either not an array, the run does not throw and reports the ID-consistency error. |
| TrailerValidation.CheckTrailers14 | preflight/src/main/java/org/allenai/pdfbox/preflight/process/TrailerValidationProcess.java:82-101 | Without a first trailer there is exactly one trailer error and no comparison. Otherwise the first trailer is checked and compared with the last, against an empty object pool. |
| TrailerValidation.IndirectIdIn14PathMismatches | preflight/src/main/java/org/allenai/pdfbox/preflight/process/TrailerValidationProcess.java:91-97 | In the 1.4 path, when both trailers carry an ID and either ID is given by reference, an ID-consistency error is reported: the empty object pool never resolves the reference. |
| TrailerValidation.ScanFirst | preflight/src/main/java/org/allenai/pdfbox/preflight/process/TrailerValidationProcess.java:123-136 | After the offset scan, the first trailer is the earliest stream with the strictly smallest offset below Long.MAX_VALUE. It is absent only when every offset equals Long.MAX_VALUE. |
| TrailerValidation.ScanLastRevision | preflight/src/main/java/org/allenai/pdfbox/preflight/process/TrailerValidationProcess.java:124-142 | After the offset scan, the last trailer is the earliest stream with the strictly largest offset above Long.MIN_VALUE. It is absent only when every offset equals Long.MIN_VALUE. |
| TrailerValidation.SelectsExtremes | preflight/src/main/java/org/allenai/pdfbox/preflight/process/TrailerValidationProcess.java:123-144 | For real file offsets the scan picks a stream of minimum and one of maximum offset, the earliest on ties. |
| TrailerValidation.CheckTrailers15 | preflight/src/main/java/org/allenai/pdfbox/preflight/process/TrailerValidationProcess.java:108-159 | An I/O failure gives exactly one trailer error. With no cross-reference stream the 1.4 path is taken. There is at most one ID-consistency error. |
| TrailerValidation.Trailers15ComparesExtremes | preflight/src/main/java/org/allenai/pdfbox/preflight/process/TrailerValidationProcess.java:123-151 | For real offsets the later path checks the first-revision stream and compares it with the last-revision stream, resolving through the document. |
| TrailerValidation.Validate | preflight/src/main/java/org/allenai/pdfbox/preflight/process/TrailerValidationProcess.java:46-75 | Without a linearization dictionary only the current trailer is checked. With one, its errors come first, followed by those of the 1.4 path or the later path, chosen by header version. |
| TrailerValidation.AtMostOneIdConsistencyError | preflight/src/main/java/org/allenai/pdfbox/preflight/process/TrailerValidationProcess.java:46-159 | A run reports at most one ID-consistency error, and none for a file that is not linearized. |
| AnnotationValidation.CheckMandatoryFields | preflight/src/main/java/org/allenai/pdfbox/preflight/annotation/AnnotationValidator.java:262-283 | It passes iff Subtype and Rect are present and the subtype hook agrees; otherwise there is exactly one missing-fields error. The hook is consulted only when both keys are present. |
| AnnotationValidation.CheckFlags | preflight/src/main/java/org/allenai/pdfbox/preflight/annotation/AnnotationValidator.java:80-93 | It passes iff Print is set and Hidden, Invisible and NoView are clear, on the F value as a 32-bit int; otherwise there is exactly one forbidden-flag error. |
| AnnotationValidation.CheckColors | preflight/src/main/java/org/allenai/pdfbox/preflight/annotation/AnnotationValidator.java:123-147 | It fails with exactly one forbidden-colour error iff a C array is present and the output intent's profile is missing or not RGB. |
| AnnotationValidation.CheckAP | preflight/src/main/java/org/allenai/pdfbox/preflight/annotation/AnnotationValidator.java:159-197 | It passes iff there is no appearance dictionary, or one with neither D nor R and whose N is a stream. A D or R entry gives one invalid-content error and no hand-over. A missing N gives the missing-N error. A present N that is not a stream gives one invalid-content error and no hand-over. Otherwise N, with its reference resolved, is handed once to the graphics process. |
| AnnotationValidation.AppearanceIgnoresNWhenAlternate | preflight/src/main/java/org/allenai/pdfbox/preflight/annotation/AnnotationValidator.java:166-171 | When the appearance dictionary has D or R, replacing its N by anything leaves the outcome unchanged: N is never examined. |
| AnnotationValidation.CheckCA | preflight/src/main/java/org/allenai/pdfbox/preflight/annotation/AnnotationValidator.java:101-115 | An absent CA passes. A numeric CA passes iff it is exactly 1.0; otherwise there is one invalid-CA error. A CA that is not a number throws (a null float unboxed). |
| AnnotationValidation.CheckActions | preflight/src/main/java/org/allenai/pdfbox/preflight/annotation/AnnotationValidator.java:207-211 | It always passes with no error, after handing the annotation once to the actions process. |
| AnnotationValidation.CheckPopup | preflight/src/main/java/org/allenai/pdfbox/preflight/annotation/AnnotationValidator.java:220-236 | An absent Popup passes. One that does not resolve to a dictionary gives exactly one dict-invalid error. Otherwise the popup is handed to its validator: that validator's errors, trace and answer, or its exception, become the check's own. |
| AnnotationValidation.PopupByReference | preflight/src/main/java/org/allenai/pdfbox/preflight/annotation/AnnotationValidator.java:222-233 | A Popup given by reference is checked exactly as the object it refers to: one reference is followed. |
| AnnotationValidation.Validate | preflight/src/main/java/org/allenai/pdfbox/preflight/annotation/AnnotationValidator.java:244-254 | The result is the conjunction of all seven checks, the popup's included. There are no errors iff the annotation conforms and a delegated popup reports none. The run throws iff CA is unreadable or the popup validator throws. The actions process is always reached when CA is readable. |
| AnnotationValidation.ErrorsOfEveryCheck | preflight/src/main/java/org/allenai/pdfbox/preflight/annotation/AnnotationValidator.java:244-254 | The errors are exactly each check's own errors, in the fixed order mandatory, flags, colours, appearance, opacity, popup: no check is skipped. |
| AnnotationValidation.MissingRectReportedOnce | preflight/src/main/java/org/allenai/pdfbox/preflight/annotation/AnnotationValidator.java:262-273 | An annotation without Rect has the missing-fields error first, and once more than the popup's own validator reports it. |
| AnnotationValidation.LaterChecksStillReport | preflight/src/main/java/org/allenai/pdfbox/preflight/annotation/AnnotationValidator.java:246-250 | Whatever earlier checks find, the flag, colour and opacity errors appear iff their own rule fails or the popup validator reports them. |
| PageValidation.ValidateActions | preflight/src/main/java/org/allenai/pdfbox/preflight/process/reflect/SinglePageValidationProcess.java:88-91 | The page is handed once to the actions process, with no error. |
| PageValidation.AnnotationsOf | preflight/src/main/java/org/allenai/pdfbox/preflight/process/reflect/SinglePageValidationProcess.java:190-198 | The annotations kept from an annotation list are exactly its annotation entries. |
| PageValidation.AnnotationsOfAppend | preflight/src/main/java/org/allenai/pdfbox/preflight/process/reflect/SinglePageValidationProcess.java:191-198 | Keeping the annotations commutes with concatenating lists, so list order is preserved. |
| PageValidation.ValidateAnnotations | preflight/src/main/java/org/allenai/pdfbox/preflight/process/reflect/SinglePageValidationProcess.java:186-209 | Each annotation is handed once to the annotations process, in list order. A failure to read the list is rethrown as a validation failure and is never recorded as an error. |
| PageValidation.LoadedColorSpaces | preflight/src/main/java/org/allenai/pdfbox/preflight/process/reflect/SinglePageValidationProcess.java:107-121 | A colour space is validated iff it can be built. A single colour space is validated once if it can be built, and not at all otherwise. |
| PageValidation.LoadedColorSpacesAppend | preflight/src/main/java/org/allenai/pdfbox/preflight/process/reflect/SinglePageValidationProcess.java:107-121 | The validations of a list are those of its first part followed by those of the rest, so each colour space that can be built is validated once, in resource order. |
| PageValidation.ColorSpaceErrors | preflight/src/main/java/org/allenai/pdfbox/preflight/process/reflect/SinglePageValidationProcess.java:107-115 | A single colour space contributes exactly its helper's errors if it can be built, and none otherwise. The errors are none iff every helper that ran reported none. |
| PageValidation.ColorSpaceErrorsAppend | preflight/src/main/java/org/allenai/pdfbox/preflight/process/reflect/SinglePageValidationProcess.java:107-121 | The errors of a list are those of its first part followed by those of the rest, so the page gets each helper's errors once, in resource order, and nothing else. |
| PageValidation.ValidateColorSpaces | preflight/src/main/java/org/allenai/pdfbox/preflight/process/reflect/SinglePageValidationProcess.java:100-123 | It never throws. No resources means no work. Otherwise its errors are exactly the helpers' errors and its trace exactly the validations, both in resource order (as characterised by the two append lemmas). Errors are none iff no helper reports one, and a colour space that cannot be built is swallowed. |
| PageValidation.UnbuildableColorSpaceSwallowed | preflight/src/main/java/org/allenai/pdfbox/preflight/process/reflect/SinglePageValidationProcess.java:116-120 | A colour space that cannot be built adds neither an error nor a validation, wherever it stands in the list. |
| PageValidation.ValidateResources | preflight/src/main/java/org/allenai/pdfbox/preflight/process/reflect/SinglePageValidationProcess.java:155-158 | The page's resources, or null, are handed once to the resources process. |
| PageValidation.ValidateGraphicObjects | preflight/src/main/java/org/allenai/pdfbox/preflight/process/reflect/SinglePageValidationProcess.java:133-153 | An absent Thumb does nothing. A Thumb that is a stream after following at most one reference is either handed to the graphics process or, if unreadable, gives exactly one graphic-invalid error. Anything else fails the cast. |
| PageValidation.ThumbnailFollowsOneReference | preflight/src/main/java/org/allenai/pdfbox/preflight/process/reflect/SinglePageValidationProcess.java:140-144 | A Thumb that refers to a second reference is not followed further and fails the cast. |
| PageValidation.ThumbnailByReference | preflight/src/main/java/org/allenai/pdfbox/preflight/process/reflect/SinglePageValidationProcess.java:135-145 | A Thumb given by reference is checked exactly as the object it refers to. |
| PageValidation.ValidateGroupTransparency | preflight/src/main/java/org/allenai/pdfbox/preflight/process/reflect/SinglePageValidationProcess.java:218-231 | Exactly one transparency-group error iff Group resolves to a dictionary whose S is the name or string Transparency; an absent or non-dictionary Group adds nothing. |
| PageValidation.ValidateContent | preflight/src/main/java/org/allenai/pdfbox/preflight/process/reflect/SinglePageValidationProcess.java:166-178 | The content stream is replayed and its validator's errors are the page's. A replay that fails reading adds exactly one unknown error after them. |
| PageValidation.Validate | preflight/src/main/java/org/allenai/pdfbox/preflight/process/reflect/SinglePageValidationProcess.java:55-79 | An empty path does nothing. A top that is not a page gives exactly one processing-missing error and no sub-check. For a page, the seven sub-checks run, and the run throws iff the annotations are unreadable or the thumbnail is not a stream. |
| PageValidation.AllPageChecksRun | preflight/src/main/java/org/allenai/pdfbox/preflight/process/reflect/SinglePageValidationProcess.java:68-77 | On a readable page every sub-check runs, in the fixed order actions, annotations, colour spaces, resources, graphics, group, content. The trace holds each hand-over in that order, starting with the actions and ending with the content replay. |
| PageValidation.ReadablePageErrors | preflight/src/main/java/org/allenai/pdfbox/preflight/process/reflect/SinglePageValidationProcess.java:68-77 | A page on which nothing throws reports the colour-space, thumbnail, group and content errors, in that order. Actions, annotations and resources add none of their own. |
| PageValidation.TransparencyGroupReportedOnce | preflight/src/main/java/org/allenai/pdfbox/preflight/process/reflect/SinglePageValidationProcess.java:68-77 | A readable page's own group check reports the transparency-group error once if its Group is a transparency group, and otherwise not at all; any other occurrence comes from a colour-space helper or the content-stream validator. |
| PageTreeValidation.Validate | preflight/src/main/java/org/allenai/pdfbox/preflight/process/PageTreeValidationProcess.java:40-64 | A missing catalog gives exactly one no-catalog error and visits no page. A /Pages entry that is not a dictionary gives exactly one processing-missing error and visits no page. Otherwise pages 0..n-1 are each visited once, in increasing order, with the current page number set to the page visited; it is reset afterwards. A page whose validation throws ends the loop with its number still current, and its exception, validation or runtime failure, propagates unchanged. |
| UriActionValidation.InnerValid | preflight/src/main/java/org/allenai/pdfbox/preflight/action/UriAction.java:56-74 | The URI action is valid iff its URI entry is a string, references resolved. A missing entry gives exactly one missing-key error; a present non-string gives exactly one invalid-type error. At most one error is added. |
| UriActionValidation.UriKinds | preflight/src/main/java/org/allenai/pdfbox/preflight/action/UriAction.java:58-71 | A reference to a string passes; a name, or a reference to nothing, is an invalid type. |
| UriActionValidation.UriByReference | preflight/src/main/java/org/allenai/pdfbox/preflight/action/UriAction.java:58-71 | A URI given by reference is checked exactly as the object it refers to. |
| ContentOperators.ShowTextLineAndSpace | pdfbox/src/main/java/org/allenai/pdfbox/contentstream/operator/text/ShowTextLineAndSpace.java:36-45 | Fewer than three operands is a missing-operand failure with no sub-operator. Otherwise exactly three single-operand operator calls are made. |
| ContentOperators.ShowTextLineAndSpaceSplitsOperands | pdfbox/src/main/java/org/allenai/pdfbox/contentstream/operator/text/ShowTextLineAndSpace.java:42-44 | The three calls are Tw, Tc and the quote operator. They receive the first three operands, one each, in order. Operands beyond the third change nothing. |
| ContentOperators.SetColor | pdfbox-ai2/src/main/java/org/apache/pdfbox_ai2/contentstream/operator/color/SetColor.java:39-50 | A device colour space with fewer operands than components is a missing-operand failure, and the colour is not set. Otherwise the colour is set exactly once, to all the operands in order, in the current space. |
| ContentOperators.SetColorRejectsOnlyShortDeviceOperands | pdfbox-ai2/src/main/java/org/apache/pdfbox_ai2/contentstream/operator/color/SetColor.java:42-46 | A non-device space accepts any operand count, and adding operands never turns an accepted list into a failure. |
| ContentOperators.TagIsLastName | pdfbox-ai2/src/main/java/org/apache/pdfbox_ai2/contentstream/operator/markedcontent/BeginMarkedContentSequenceWithProperties.java:39-51 | The tag is the last name among the operands, and there is none iff no operand is a name. |
| ContentOperators.PropertiesAreLastDictionary | pdfbox-ai2/src/main/java/org/apache/pdfbox_ai2/contentstream/operator/markedcontent/BeginMarkedContentSequenceWithProperties.java:39-51 | The property list is the last dictionary or stream among the operands, and there is none iff there is no such operand. |
| ContentOperators.OtherOperandsIgnored | pdfbox-ai2/src/main/java/org/apache/pdfbox_ai2/contentstream/operator/markedcontent/BeginMarkedContentSequenceWithProperties.java:41-51 | An operand that is neither a name nor a dictionary changes neither the tag nor the property list, wherever it stands. |
| ContentOperators.BeginMarkedContentSequence | pdfbox-ai2/src/main/java/org/apache/pdfbox_ai2/contentstream/operator/markedcontent/BeginMarkedContentSequenceWithProperties.java:37-56 | No operand list is rejected. A marked-content extractor receives exactly one begin call, whose tag is the last name operand (none iff there is no name) and whose property list is the last dictionary or stream operand (none iff there is none); any other context receives nothing. |
| ContentOperators.BeginMarkedContentWellFormed | pdfbox-ai2/src/main/java/org/apache/pdfbox_ai2/contentstream/operator/markedcontent/BeginMarkedContentSequenceWithProperties.java:37-56 | For the usual operands, a tag then a property list, the extractor receives exactly that tag and that dictionary. |

## Left out

- **COS helpers.** `COSUtils` and the COS accessors are modelled from their
  behaviour rather than re-implemented: one
  level of reference resolution through the object pool, a dangling
  reference reading as null, and a stream counting as a dictionary.
- **Collaborators as parameters.** The collaborators are the output intent's
  ICC profile (`ICCProfileWrapper`), the subtype-specific mandatory-field
  hook, the popup validator's outcome, whether a thumbnail image or a colour
  space can be built, the errors each colour-space helper reports, and the
  content-stream validator's errors and whether its replay fails reading.
  They are parameters of the model, not re-implemented. The processes that
  `ContextHelper.validateElement` reaches (actions, annotations, resources,
  graphics, and each page from the page tree) are recorded as trace events.
  The errors those processes add are not modelled.
- **Exceptions from delegated processes.** The model covers the
  annotation-list read failure, the popup validator's exception, and one
  page of the page tree whose validation throws (a validation or runtime
  failure). An exception raised inside any other delegated process, a
  colour-space helper, the content-stream validator, or while searching
  the ICC profile, is not modelled.
- **Cross-reference offsets.** A cross-reference stream missing from the
  cross-reference table (a null offset unboxed) is not modelled; every
  stream carries an offset.
- **Floats.** The PDF version is an integer in tenths (compared with 14)
  rather than a float compared with 1.4f. CA is an exact rational compared
  with 1.0, without single-precision rounding.
- **Error messages.** Messages and exception payloads are left out; only
  error codes are kept.
- **Popup recursion.** There is no cycle guard in the code, so none is
  invented here.
- **Out of scope.** The example drivers `FieldTriggers` and
  `CreateSimpleForm`, the debugger tooltip `GToolTip`, and
  `PDStructureElementNameTreeNode` are not modelled. They are file I/O, GUI
  code, or a wrapper whose behaviour lives elsewhere.
- **Font validators.** `FontValidator` and `CIDType2FontValidator` are not
  modelled, because their checks live in classes that are not part of this
  model.
- TrailerValidation.CompareIds: when both IDs resolve to arrays and one
  of them holds a non-string, the contract says only that any exception is
  the runtime cast failure. It does not say which such inputs throw: that
  depends on where the scan stops.
- TrailerValidation.CheckTrailers15: the selection of the first and last
  stream is stated separately, in `ScanFirst`, `ScanLastRevision` and
  `Trailers15ComparesExtremes`. The last of these holds for offsets below
  Long.MAX_VALUE, which is every offset a file can have.

=== FILE: annotation.dfy ===
/** The checks every PDF/A-1 annotation goes through (section 6.5.3 of
    ISO 19005-1), common to all annotation subtypes: mandatory fields, flags,
    colour, appearance dictionary, constant opacity, actions and popup.

    What lies outside the annotation dictionary is a parameter: the output
    intent's ICC profile, the subtype's own mandatory-field hook, and the
    result of validating the popup annotation with its own validator. */
module AnnotationValidation {
  import opened Cos
  import opened Preflight

  const KeySubtype := "Subtype"
  const KeyRect := "Rect"
  const KeyF := "F"
  const KeyC := "C"
  const KeyCA := "CA"
  const KeyAP := "AP"
  const KeyPopup := "Popup"

  /** Annotation flag masks (section 12.5.3 of ISO 32000-1, bit positions
      1, 2, 3 and 6). */
  const FlagInvisible: bv32 := 1
  const FlagHidden: bv32 := 2
  const FlagPrint: bv32 := 4
  const FlagNoView: bv32 := 32

  datatype AnnotationEnv = AnnotationEnv(
    store: Store,
    outputIntentRgb: Option<bool>,   // the output intent's ICC profile: None if there is none, else whether it is RGB
    specificFieldsPresent: bool,     // the subtype validator's extra mandatory-field check
    popup: Outcome<bool>)            // what the popup annotation's own validator reports, and returns or throws

  // ---------------------------------------------------------------------
  // The rules, stated on the annotation dictionary

  /** The F entry as a Java `int`, 0 when absent. */
  function Flags(a: Dictionary, store: Store): bv32 {
    Bits(IntEntry(a, KeyF, store, 0))
  }

  predicate FlagIsSet(flags: bv32, mask: bv32) {
    flags & mask == mask
  }

  /** Printed, and neither hidden, invisible nor NoView. */
  predicate FlagsAllowed(a: Dictionary, store: Store) {
    var f := Flags(a, store);
    FlagIsSet(f, FlagPrint) && !FlagIsSet(f, FlagHidden) && !FlagIsSet(f, FlagInvisible) && !FlagIsSet(f, FlagNoView)
  }

  /** The annotation has a colour: its C entry is an array. */
  predicate HasColor(a: Dictionary) {
    Item(a, KeyC).Some? && Item(a, KeyC).value.Array?
  }

  predicate ColorAllowed(a: Dictionary, env: AnnotationEnv) {
    HasColor(a) ==> env.outputIntentRgb == Some(true)
  }

  /** The appearance dictionary, when AP holds one. */
  function Appearance(a: Dictionary, store: Store): Option<Dictionary> {
    match DictionaryObject(a, KeyAP, store)
    case Some(o) => if IsDictLike(o) then Some(DictOf(o)) else None
    case None => None
  }

  /** Only the normal appearance, and it is a stream. */
  predicate AppearanceAllowed(a: Dictionary, store: Store) {
    match Appearance(a, store)
    case None => true
    case Some(ap) => !Has(ap, "D") && !Has(ap, "R") && Has(ap, "N") && IsKind(ap[Named("N")], store, StreamKind)
  }

  /** The appearance dictionary has a down (D) or rollover (R) entry. */
  predicate HasAlternateAppearance(a: Dictionary, store: Store) {
    Appearance(a, store).Some? && (Has(Appearance(a, store).value, "D") || Has(Appearance(a, store).value, "R"))
  }

  /** CA, when present, is a number equal to exactly 1.0. */
  predicate OpacityAllowed(a: Dictionary, store: Store) {
    Has(a, KeyCA) ==> AsNumber(a[Named(KeyCA)], store) == Some(1.0)
  }

  /** A CA entry that is not a number. */
  predicate OpacityUnreadable(a: Dictionary, store: Store) {
    Has(a, KeyCA) && AsNumber(a[Named(KeyCA)], store).None?
  }

  predicate PopupIsDictionary(a: Dictionary, store: Store) {
    Has(a, KeyPopup) ==> AsDictionary(Item(a, KeyPopup), store).Some?
  }

  /** The Popup entry resolves to a dictionary, so the popup's own validator runs. */
  predicate PopupDelegated(a: Dictionary, store: Store) {
    AsDictionary(Item(a, KeyPopup), store).Some?
  }

  predicate MandatoryFieldsPresent(a: Dictionary, env: AnnotationEnv) {
    Has(a, KeySubtype) && Has(a, KeyRect) && env.specificFieldsPresent
  }

  /** Everything this validator checks itself passes. */
  predicate ConformingAnnotation(a: Dictionary, env: AnnotationEnv) {
    && MandatoryFieldsPresent(a, env)
    && FlagsAllowed(a, env.store)
    && ColorAllowed(a, env)
    && AppearanceAllowed(a, env.store)
    && OpacityAllowed(a, env.store)
    && PopupIsDictionary(a, env.store)
  }

  // ---------------------------------------------------------------------
  // The checks

  /** checkMandatoryFields: Subtype and Rect must be present, and then the
      subtype's own hook is asked; one error if anything fails. */
  function CheckMandatoryFields(a: Dictionary, env: AnnotationEnv): (r: Outcome<bool>)
    ensures r.result.Ok?
    ensures r.result.value <==> MandatoryFieldsPresent(a, env)
    ensures r.errors == if r.result.value then [] else [AnnotMissingFields]
    ensures r.events == if Has(a, KeySubtype) && Has(a, KeyRect) then [SpecificFieldsChecked] else []
  {
    var consulted := Has(a, KeySubtype) && Has(a, KeyRect);
    var ok := consulted && env.specificFieldsPresent;
    Outcome(if ok then [] else [AnnotMissingFields], if consulted then [SpecificFieldsChecked] else [], Ok(ok))
  }

  /** checkFlags. */
  function CheckFlags(a: Dictionary, env: AnnotationEnv): (r: Outcome<bool>)
    ensures r.result.Ok? && r.events == []
    ensures r.result.value <==> FlagsAllowed(a, env.store)
    ensures r.errors == if r.result.value then [] else [AnnotForbiddenFlag]
  {
    var f := Flags(a, env.store);
    var ok := FlagIsSet(f, FlagPrint) && !FlagIsSet(f, FlagHidden) && !FlagIsSet(f, FlagInvisible) && !FlagIsSet(f, FlagNoView);
    Returns(ok, if ok then [] else [AnnotForbiddenFlag])
  }

  /** checkColors: a colour is only allowed with an RGB output intent. */
  function CheckColors(a: Dictionary, env: AnnotationEnv): (r: Outcome<bool>)
    ensures r.result.Ok? && r.events == []
    ensures r.result.value <==> ColorAllowed(a, env)
    ensures r.errors == if r.result.value then [] else [AnnotForbiddenColor]
  {
    var rgb := match env.outputIntentRgb case Some(isRgb) => isRgb case None => false;
    if HasColor(a) && !rgb then Returns(false, [AnnotForbiddenColor]) else Returns(true, [])
  }

  /** checkAP: a D or R appearance is refused before N is looked at; then N
      must exist and be a stream, which is handed to the graphics process. */
  function CheckAP(a: Dictionary, env: AnnotationEnv): (r: Outcome<bool>)
    ensures r.result.Ok?
    ensures r.result.value <==> AppearanceAllowed(a, env.store)
    ensures |r.errors| <= 1 && (r.errors == [] <==> r.result.value)
    ensures HasAlternateAppearance(a, env.store) ==> r.errors == [AnnotInvalidApContent] && r.events == []
    ensures AnnotMissingApNContent in r.errors <==>
              (Appearance(a, env.store).Some? && !HasAlternateAppearance(a, env.store)
               && !Has(Appearance(a, env.store).value, "N"))
    ensures (Appearance(a, env.store).Some? && !HasAlternateAppearance(a, env.store)
             && Has(Appearance(a, env.store).value, "N")
             && !IsKind(Appearance(a, env.store).value[Named("N")], env.store, StreamKind))
            ==> r.errors == [AnnotInvalidApContent] && r.events == []
    ensures |r.events| == (if r.result.value && Appearance(a, env.store).Some? then 1 else 0)
    ensures r.events != [] ==>
              && r.events == [Delegated(GraphicProcess, Resolve(Appearance(a, env.store).value[Named("N")], env.store))]
              && r.events[0].subject.Stream?
  {
    match Appearance(a, env.store)
    case None => Returns(true, [])
    case Some(ap) =>
      if Item(ap, "D").Some? || Item(ap, "R").Some? then Returns(false, [AnnotInvalidApContent])
      else if Item(ap, "N").None? then Returns(false, [AnnotMissingApNContent])
      else
        var n := ap[Named("N")];
        if !IsKind(n, env.store, StreamKind) then Returns(false, [AnnotInvalidApContent])
        else Outcome([], [Delegated(GraphicProcess, Resolve(n, env.store))], Ok(true))
  }

  /** checkCA: only 1.0 is allowed. A CA that is not a number reads as a
      null float, which throws when unboxed. */
  function CheckCA(a: Dictionary, env: AnnotationEnv): (r: Outcome<bool>)
    ensures r.events == []
    ensures r.result.Threw? <==> OpacityUnreadable(a, env.store)
    ensures r.result.Ok? ==> (r.result.value <==> OpacityAllowed(a, env.store))
    ensures r.errors == if r.result == Ok(false) then [AnnotInvalidCa] else []
  {
    match Item(a, KeyCA)
    case None => Returns(true, [])
    case Some(ca) =>
      match AsNumber(ca, env.store)
      case None => Outcome([], [], Threw(RuntimeFailure))
      case Some(value) => if value != 1.0 then Returns(false, [AnnotInvalidCa]) else Returns(true, [])
  }

  /** checkActions: the actions are left to the actions process. */
  function CheckActions(a: Dictionary): (r: Outcome<bool>)
    ensures r.result == Ok(true) && r.errors == []
    ensures r.events == [Delegated(ActionsProcess, Dict(a))]
  {
    Outcome([], [Delegated(ActionsProcess, Dict(a))], Ok(true))
  }

  /** checkPopup: a Popup entry must be a dictionary, which its own
      validator then decides on. That validator reports into the same error
      list, and whatever it throws leaves this check too. */
  function CheckPopup(a: Dictionary, env: AnnotationEnv): (r: Outcome<bool>)
    ensures !Has(a, KeyPopup) ==> r == Returns(true, [])
    ensures Has(a, KeyPopup) && !PopupDelegated(a, env.store) ==> r == Returns(false, [SyntaxDictInvalid])
    ensures PopupDelegated(a, env.store) ==>
              && r.errors == env.popup.errors && r.result == env.popup.result
              && r.events == [PopupValidated(AsDictionary(Item(a, KeyPopup), env.store).value)] + env.popup.events
    ensures r.result.Threw? <==> PopupDelegated(a, env.store) && env.popup.result.Threw?
    ensures r.result.Ok? ==>
              (r.result.value <==> PopupIsDictionary(a, env.store) && (PopupDelegated(a, env.store) ==> env.popup.result.value))
  {
    match Item(a, KeyPopup)
    case None => Returns(true, [])
    case Some(o) =>
      match AsDictionary(Some(o), env.store)
      case None => Returns(false, [SyntaxDictInvalid])
      case Some(popup) => Outcome(env.popup.errors, [PopupValidated(popup)] + env.popup.events, env.popup.result)
  }

  /** AnnotationValidator.validate: all seven checks run, in order, whatever
      the earlier ones found, and the result is their conjunction. An
      unreadable CA stops the run after the appearance check; the popup's
      validator, which runs last, may throw too. */
  function Validate(a: Dictionary, env: AnnotationEnv): (r: Outcome<bool>)
    ensures r.result.Threw? <==> OpacityUnreadable(a, env.store) || (PopupDelegated(a, env.store) && env.popup.result.Threw?)
    ensures r.result.Ok? ==>
              (r.result.value <==> ConformingAnnotation(a, env) && (PopupDelegated(a, env.store) ==> env.popup.result.value))
    ensures !OpacityUnreadable(a, env.store) ==>
              (r.errors == [] <==> ConformingAnnotation(a, env) && (PopupDelegated(a, env.store) ==> env.popup.errors == []))
    ensures |r.errors| <= 6 + |env.popup.errors|
    ensures !OpacityUnreadable(a, env.store) ==> Delegated(ActionsProcess, Dict(a)) in r.events
  {
    var mandatory := CheckMandatoryFields(a, env);
    var flags := CheckFlags(a, env);
    var colors := CheckColors(a, env);
    var ap := CheckAP(a, env);
    var ca := CheckCA(a, env);
    var before := mandatory.errors + flags.errors + colors.errors + ap.errors + ca.errors;
    var beforeEvents := mandatory.events + flags.events + colors.events + ap.events + ca.events;
    match ca.result
    case Threw(e) => Outcome(before, beforeEvents, Threw(e))
    case Ok(caOk) =>
      var actions := CheckActions(a);
      var popup := CheckPopup(a, env);
      var errors := before + actions.errors + popup.errors;
      var events := beforeEvents + actions.events + popup.events;
      match popup.result
      case Threw(e) => Outcome(errors, events, Threw(e))
      case Ok(popupOk) =>
        var ok := mandatory.result.value && flags.result.value && colors.result.value && ap.result.value
                  && caOk && actions.result.value && popupOk;
        Outcome(errors, events, Ok(ok))
  }

  /** The run's errors are each check's own errors, in the fixed order
      mandatory fields, flags, colours, appearance, opacity, popup: no check
      is skipped because an earlier one failed. */
  lemma ErrorsOfEveryCheck(a: Dictionary, env: AnnotationEnv)
    requires !OpacityUnreadable(a, env.store)
    ensures Validate(a, env).errors ==
      CheckMandatoryFields(a, env).errors + CheckFlags(a, env).errors + CheckColors(a, env).errors
      + CheckAP(a, env).errors + CheckCA(a, env).errors + CheckPopup(a, env).errors
  {
    assert CheckActions(a).errors == [];
  }

  /** An annotation without Rect gets its missing-field error first, and
      exactly once apart from those its popup's validator reports. */
  lemma MissingRectReportedOnce(a: Dictionary, env: AnnotationEnv)
    requires !Has(a, KeyRect) && !OpacityUnreadable(a, env.store)
    ensures Validate(a, env).errors[0] == AnnotMissingFields
    ensures Count(Validate(a, env).errors, AnnotMissingFields) == 1 + Count(CheckPopup(a, env).errors, AnnotMissingFields)
  {
    ErrorsOfEveryCheck(a, env);
    var f := CheckFlags(a, env);
    var c := CheckColors(a, env);
    var ap := CheckAP(a, env);
    var ca := CheckCA(a, env);
    var p := CheckPopup(a, env);
    var middle := f.errors + c.errors + ap.errors + ca.errors;
    var m := CheckMandatoryFields(a, env).errors;
    assert m == [AnnotMissingFields];
    assert Validate(a, env).errors == m + f.errors + c.errors + ap.errors + ca.errors + p.errors;
    assert Validate(a, env).errors == [AnnotMissingFields] + (middle + p.errors) by {
      Associate6(m, f.errors, c.errors, ap.errors, ca.errors, p.errors);
    }
    assert |ap.errors| <= 1 && AnnotMissingFields !in ap.errors;
    assert AnnotMissingFields !in middle;
    CountAppend(middle, p.errors, AnnotMissingFields);
    CountAppend([AnnotMissingFields], middle + p.errors, AnnotMissingFields);
    CountSingle(AnnotMissingFields, AnnotMissingFields);
  }

  /** Whatever the mandatory-field check finds, the flag, colour and
      opacity checks still report their own errors; the only other source
      of those codes is the popup's validator. */
  lemma LaterChecksStillReport(a: Dictionary, env: AnnotationEnv)
    requires !OpacityUnreadable(a, env.store)
    ensures var errors := Validate(a, env).errors;
      var popupErrors := CheckPopup(a, env).errors;
      && (AnnotForbiddenFlag in errors <==> !FlagsAllowed(a, env.store) || AnnotForbiddenFlag in popupErrors)
      && (AnnotForbiddenColor in errors <==> !ColorAllowed(a, env) || AnnotForbiddenColor in popupErrors)
      && (AnnotInvalidCa in errors <==> !OpacityAllowed(a, env.store) || AnnotInvalidCa in popupErrors)
  {
    ErrorsOfEveryCheck(a, env);
    var m := CheckMandatoryFields(a, env);
    var f := CheckFlags(a, env);
    var c := CheckColors(a, env);
    var ap := CheckAP(a, env);
    var ca := CheckCA(a, env);
    var p := CheckPopup(a, env);
    assert |ap.errors| <= 1 && AnnotForbiddenFlag !in ap.errors && AnnotForbiddenColor !in ap.errors && AnnotInvalidCa !in ap.errors;
    InConcat6(AnnotForbiddenFlag, m.errors, f.errors, c.errors, ap.errors, ca.errors, p.errors);
    InConcat6(AnnotForbiddenColor, m.errors, f.errors, c.errors, ap.errors, ca.errors, p.errors);
    InConcat6(AnnotInvalidCa, m.errors, f.errors, c.errors, ap.errors, ca.errors, p.errors);
  }

  /** With a D or R appearance the N entry is never looked at: replacing it
      by anything leaves the check's outcome unchanged. */
  lemma AppearanceIgnoresNWhenAlternate(a: Dictionary, env: AnnotationEnv, ap: Dictionary, n: Obj)
    requires Item(a, KeyAP) == Some(Dict(ap)) && (Has(ap, "D") || Has(ap, "R"))
    ensures CheckAP(a[Named(KeyAP) := Dict(ap[Named("N") := n])], env) == CheckAP(a, env)
  {
    var a' := a[Named(KeyAP) := Dict(ap[Named("N") := n])];
    assert Appearance(a', env.store) == Some(ap[Named("N") := n]);
    assert Appearance(a, env.store) == Some(ap);
  }

  /** A popup given by reference is checked as the dictionary it refers to:
      COSUtils follows the one reference. */
  lemma PopupByReference(a: Dictionary, env: AnnotationEnv, k: ObjKey)
    requires k in env.store && !env.store[k].Ref?
    ensures CheckPopup(a[Named(KeyPopup) := Ref(k)], env) == CheckPopup(a[Named(KeyPopup) := env.store[k]], env)
  {
  }
}

=== FILE: cos.dfy ===
/** The parsed PDF object graph (the COS layer) as immutable values, and the
    handful of typed accessors the preflight checks use on it.

    Dictionaries are finite maps. A dictionary key is normally a name; `Foreign`
    stands for any other key object, which the trailer and linearization checks
    explicitly reject. A `Stream` carries its dictionary only: no check modelled
    here reads stream data. In the Java object model a stream IS a dictionary
    (COSStream extends COSDictionary), so every "is it a dictionary" test below
    accepts streams as well. */
module Cos {

  datatype Option<+T> = None | Some(value: T)

  /** Number and generation of an indirect object. */
  datatype ObjKey = ObjKey(num: int, gen: int)

  datatype Key = Named(name: string) | Foreign(id: nat)

  datatype Obj =
    | Null
    | Bool(b: bool)
    | Int(i: int)
    | Real(r: real)
    | Name(n: string)
    | Str(s: string)
    | Array(items: seq<Obj>)
    | Dict(entries: map<Key, Obj>)
    | Stream(entries: map<Key, Obj>)
    | Ref(key: ObjKey)

  type Dictionary = map<Key, Obj>

  /** The document's object pool: what each indirect reference points to. */
  type Store = map<ObjKey, Obj>

  /** `containsKey` / key-set membership for a name key. */
  predicate Has(d: Dictionary, key: string) {
    Named(key) in d
  }

  /** `getItem`: the raw entry, references left unresolved. */
  function Item(d: Dictionary, key: string): (r: Option<Obj>)
    ensures r.Some? <==> Has(d, key)
    ensures r.Some? ==> r.value == d[Named(key)]
  {
    if Named(key) in d then Some(d[Named(key)]) else None
  }

  /** True iff every key of the dictionary is a name. */
  predicate AllKeysNamed(d: Dictionary) {
    forall k :: k in d ==> k.Named?
  }

  /** Follows one indirect reference through the object pool; a reference
      with no object behind it resolves to null. Direct objects are returned
      as they are. */
  function Resolve(o: Obj, store: Store): (r: Obj)
    ensures !o.Ref? ==> r == o
    ensures o.Ref? && o.key !in store ==> r == Null
  {
    match o
    case Ref(k) => if k in store then store[k] else Null
    case _ => o
  }

  /** `instanceof COSDictionary`, which holds for streams too. */
  predicate IsDictLike(o: Obj) {
    o.Dict? || o.Stream?
  }

  /** The dictionary of a dictionary or of a stream. */
  function DictOf(o: Obj): Dictionary
    requires IsDictLike(o)
  {
    o.entries
  }

  /** `getDictionaryObject`: the entry with one reference resolved; an
      explicit null entry reads as absent. */
  function DictionaryObject(d: Dictionary, key: string, store: Store): (r: Option<Obj>)
    ensures r.Some? ==> Has(d, key) && r.value != Null
    ensures !Has(d, key) ==> r.None?
  {
    match Item(d, key)
    case None => None
    case Some(o) =>
      var v := Resolve(o, store);
      if v.Null? then None else Some(v)
  }

  /** The object kinds the COSUtils `is*` helpers test for. */
  datatype Kind = ArrayKind | IntegerKind | DictionaryKind | StreamKind | StringKind

  /** COSUtils.isArray / isInteger / isDictionary / isStream / isString:
      resolve one reference, then test the kind. */
  predicate IsKind(o: Obj, store: Store, kind: Kind) {
    var v := Resolve(o, store);
    match kind
    case ArrayKind => v.Array?
    case IntegerKind => v.Int?
    case DictionaryKind => IsDictLike(v)
    case StreamKind => v.Stream?
    case StringKind => v.Str?
  }

  /** COSUtils.getAsDictionary: the dictionary behind an entry, if any. */
  function AsDictionary(o: Option<Obj>, store: Store): (r: Option<Dictionary>)
    ensures r.Some? <==> o.Some? && IsKind(o.value, store, DictionaryKind)
  {
    match o
    case None => None
    case Some(x) =>
      var v := Resolve(x, store);
      if IsDictLike(v) then Some(DictOf(v)) else None
  }

  /** COSUtils.getAsArray: the items behind an entry, if it is an array. */
  function AsArray(o: Obj, store: Store): (r: Option<seq<Obj>>)
    ensures r.Some? <==> IsKind(o, store, ArrayKind)
    ensures r.Some? ==> Resolve(o, store) == Array(r.value)
  {
    var v := Resolve(o, store);
    if v.Array? then Some(v.items) else None
  }

  /** COSUtils.getAsFloat: the numeric value of an entry, or nothing when it
      is not a number. Reals stand for the single-precision value the parser
      already produced. */
  function AsNumber(o: Obj, store: Store): (r: Option<real>)
    ensures r.Some? <==> (Resolve(o, store).Int? || Resolve(o, store).Real?)
  {
    match Resolve(o, store)
    case Int(i) => Some(i as real)
    case Real(x) => Some(x)
    case _ => None
  }

  const TwoTo32: int := 0x1_0000_0000
  const IntMin: int := -0x8000_0000
  const IntMax: int := 0x7FFF_FFFF

  /** Java's `(int)` conversion of a floating value: truncation toward zero,
      saturating at the bounds of `int`. */
  function Truncate(x: real): (r: int)
    ensures IntMin <= r <= IntMax
    ensures IntMin as real <= x <= IntMax as real && 0.0 <= x ==> r as real <= x < r as real + 1.0
    ensures IntMin as real <= x <= IntMax as real && x < 0.0 ==> r as real - 1.0 < x <= r as real
  {
    if x >= IntMax as real then IntMax
    else if x <= IntMin as real then IntMin
    else if x >= 0.0 then x.Floor else -((-x).Floor)
  }

  /** Java's narrowing of a `long` to an `int`: keep the low 32 bits, read
      them as two's complement. */
  function Wrap32(i: int): (r: int)
    ensures IntMin <= r <= IntMax
    ensures (r - i) % TwoTo32 == 0
    ensures IntMin <= i <= IntMax ==> r == i
  {
    (i - IntMin) % TwoTo32 + IntMin
  }

  /** The 32 bits of a Java `int`, for its bitwise operators. */
  function Bits(i: int): bv32
    requires IntMin <= i <= IntMax
  {
    (if i < 0 then i + TwoTo32 else i) as bv32
  }

  /** `getInt(key, default)`: the integer value of a numeric entry, the
      default for an absent or non-numeric one. */
  function IntEntry(d: Dictionary, key: string, store: Store, default: int): (r: int)
    requires IntMin <= default <= IntMax
    ensures IntMin <= r <= IntMax
    ensures !Has(d, key) ==> r == default
  {
    match DictionaryObject(d, key, store)
    case Some(Int(i)) => Wrap32(i)
    case Some(Real(x)) => Truncate(x)
    case _ => default
  }

  /** `getNameAsString`: the text of a name or string entry, references
      resolved. */
  function NameAsString(d: Dictionary, key: string, store: Store): (r: Option<string>)
    ensures r.Some? ==> Has(d, key)
  {
    match DictionaryObject(d, key, store)
    case Some(Name(n)) => Some(n)
    case Some(Str(s)) => Some(s)
    case _ => None
  }
}

=== FILE: operators.dfy ===
/** Three content-stream operator handlers: `"` (move to the next line and
    show text with word and character spacing), the colour-setting
    operators, and BDC (begin a marked-content sequence with a property
    list). Each turns its operand list into calls on the content-stream
    engine, or fails with a missing-operand error. */
module ContentOperators {
  import opened Cos

  const ShowTextLineAndSpaceName := "\""
  const WordSpacingName := "Tw"
  const CharSpacingName := "Tc"
  const ShowTextLineName := "'"
  const BeginMarkedContentName := "BDC"

  /** The current colour space of the graphics state. The device spaces fix
      their number of components; any other space is not checked. */
  datatype ColorSpace = DeviceGray | DeviceRGB | DeviceCMYK | OtherSpace(name: string, components: nat)

  predicate IsDevice(cs: ColorSpace) {
    !cs.OtherSpace?
  }

  function ComponentCount(cs: ColorSpace): nat {
    match cs
    case DeviceGray => 1
    case DeviceRGB => 3
    case DeviceCMYK => 4
    case OtherSpace(_, n) => n
  }

  /** A colour: its operands as given, in a colour space. */
  datatype Color = Color(components: seq<Obj>, space: ColorSpace)

  /** What a handler asks the engine to do. */
  datatype Call =
    | ProcessOperator(name: string, operands: seq<Obj>)
    | SetColorCall(color: Color)
    | BeginMarkedContent(tag: Option<string>, properties: Option<Dictionary>)

  datatype OperatorResult = Processed(calls: seq<Call>) | MissingOperand(operator: string, operands: seq<Obj>)

  /** ShowTextLineAndSpace.process: `aw ac string "` is `aw Tw`, `ac Tc`,
      `string '`. */
  function ShowTextLineAndSpace(args: seq<Obj>): (r: OperatorResult)
    ensures r.MissingOperand? <==> |args| < 3
    ensures r.MissingOperand? ==> r == MissingOperand(ShowTextLineAndSpaceName, args)
    ensures r.Processed? ==> |r.calls| == 3 && forall c :: c in r.calls ==> c.ProcessOperator? && |c.operands| == 1
  {
    if |args| < 3 then MissingOperand(ShowTextLineAndSpaceName, args)
    else Processed([ProcessOperator(WordSpacingName, args[0..1]),
                    ProcessOperator(CharSpacingName, args[1..2]),
                    ProcessOperator(ShowTextLineName, args[2..3])])
  }

  /** The operands of a run of operator calls, concatenated. */
  function OperandsOf(calls: seq<Call>): seq<Obj> {
    if |calls| == 0 then []
    else (if calls[0].ProcessOperator? then calls[0].operands else []) + OperandsOf(calls[1..])
  }

  /** The three operators receive the first three operands, one each and in
      order, in the order word spacing, character spacing, show text; any
      further operands are ignored. */
  lemma ShowTextLineAndSpaceSplitsOperands(args: seq<Obj>)
    requires |args| >= 3
    ensures var r := ShowTextLineAndSpace(args);
      && r.Processed?
      && OperandsOf(r.calls) == args[..3]
      && [r.calls[0].name, r.calls[1].name, r.calls[2].name] == [WordSpacingName, CharSpacingName, ShowTextLineName]
      && ShowTextLineAndSpace(args[..3]) == r
  {
    var calls := ShowTextLineAndSpace(args).calls;
    assert calls[1..][1..][1..] == [];
    assert OperandsOf(calls[1..][1..]) == args[2..3] + [];
    assert OperandsOf(calls[1..]) == args[1..2] + args[2..3];
    assert OperandsOf(calls) == args[0..1] + (args[1..2] + args[2..3]);
    assert args[0..1] + (args[1..2] + args[2..3]) == args[..3];
    var head := args[..3];
    assert head[0..1] == args[0..1] && head[1..2] == args[1..2] && head[2..3] == args[2..3];
  }

  /** SetColor.process: a device colour space needs at least as many operands
      as it has components; otherwise the operands, all of them, become the
      new colour in the current space. */
  function SetColor(operator: string, args: seq<Obj>, space: ColorSpace): (r: OperatorResult)
    ensures r.MissingOperand? <==> IsDevice(space) && |args| < ComponentCount(space)
    ensures r.MissingOperand? ==> r == MissingOperand(operator, args)
    ensures r.Processed? ==> |r.calls| == 1 && r.calls[0].SetColorCall?
                             && r.calls[0].color.components == args && r.calls[0].color.space == space
  {
    if IsDevice(space) && |args| < ComponentCount(space) then MissingOperand(operator, args)
    else Processed([SetColorCall(Color(args, space))])
  }

  /** Only a device colour space can reject an operand list; extra operands
      never do. */
  lemma SetColorRejectsOnlyShortDeviceOperands(operator: string, args: seq<Obj>, extra: seq<Obj>, space: ColorSpace)
    ensures !IsDevice(space) ==> SetColor(operator, args, space).Processed?
    ensures SetColor(operator, args, space).Processed? ==> SetColor(operator, args + extra, space).Processed?
  {
  }

  /** The tag and property list of a BDC operand list: the last name and the
      last dictionary (or stream), scanning from the first operand. */
  function MarkedContentOperands(args: seq<Obj>): (r: (Option<string>, Option<Dictionary>))
    decreases |args|
  {
    if |args| == 0 then (None, None)
    else
      var prev := MarkedContentOperands(args[..|args| - 1]);
      var a := args[|args| - 1];
      if a.Name? then (Some(a.n), prev.1)
      else if IsDictLike(a) then (prev.0, Some(DictOf(a)))
      else prev
  }

  /** The tag is the last name among the operands; there is none iff no
      operand is a name. */
  lemma {:induction false} TagIsLastName(args: seq<Obj>)
    ensures MarkedContentOperands(args).0.None? <==> forall i :: 0 <= i < |args| ==> !args[i].Name?
    ensures forall i :: 0 <= i < |args| && args[i].Name? && (forall j :: i < j < |args| ==> !args[j].Name?) ==>
              MarkedContentOperands(args).0 == Some(args[i].n)
  {
    if |args| > 0 {
      var init := args[..|args| - 1];
      TagIsLastName(init);
      assert forall i :: 0 <= i < |init| ==> init[i] == args[i];
    }
  }

  /** The property list is the last dictionary or stream among the operands;
      there is none iff no operand is one. */
  lemma {:induction false} PropertiesAreLastDictionary(args: seq<Obj>)
    ensures MarkedContentOperands(args).1.None? <==> forall i :: 0 <= i < |args| ==> !IsDictLike(args[i])
    ensures forall i :: 0 <= i < |args| && IsDictLike(args[i]) && (forall j :: i < j < |args| ==> !IsDictLike(args[j])) ==>
              MarkedContentOperands(args).1 == Some(DictOf(args[i]))
  {
    if |args| > 0 {
      var init := args[..|args| - 1];
      PropertiesAreLastDictionary(init);
      assert forall i :: 0 <= i < |init| ==> init[i] == args[i];
    }
  }

  /** An operand that is neither a name nor a dictionary changes nothing,
      wherever it stands. */
  lemma {:induction false} OtherOperandsIgnored(a: seq<Obj>, x: Obj, b: seq<Obj>)
    requires !x.Name? && !IsDictLike(x)
    ensures MarkedContentOperands(a + [x] + b) == MarkedContentOperands(a + b)
    decreases |b|
  {
    if |b| == 0 {
      assert a + [x] + b == a + [x];
      assert (a + [x])[..|a|] == a;
      assert a + b == a;
    } else {
      var init := b[..|b| - 1];
      OtherOperandsIgnored(a, x, init);
      assert (a + [x] + b)[..|a + [x] + b| - 1] == a + [x] + init;
      assert (a + b)[..|a + b| - 1] == a + init;
      assert (a + [x] + b)[|a + [x] + b| - 1] == b[|b| - 1] == (a + b)[|a + b| - 1];
    }
  }

  /** BeginMarkedContentSequenceWithProperties.process: only a marked-content
      extractor is told about the sequence, with the last name operand as the
      tag and the last dictionary or stream operand as the property list; no
      operand list is rejected. */
  function BeginMarkedContentSequence(args: seq<Obj>, isExtractor: bool): (r: OperatorResult)
    ensures r.Processed?
    ensures !isExtractor ==> r.calls == []
    ensures isExtractor ==> |r.calls| == 1 && r.calls[0].BeginMarkedContent?
    ensures isExtractor && (forall i :: 0 <= i < |args| ==> !args[i].Name? && !IsDictLike(args[i])) ==>
              r.calls == [BeginMarkedContent(None, None)]
    ensures isExtractor ==> (r.calls[0].tag.None? <==> forall i :: 0 <= i < |args| ==> !args[i].Name?)
    ensures isExtractor ==>
              forall i :: 0 <= i < |args| && args[i].Name? && (forall j :: i < j < |args| ==> !args[j].Name?) ==>
                r.calls[0].tag == Some(args[i].n)
    ensures isExtractor ==> (r.calls[0].properties.None? <==> forall i :: 0 <= i < |args| ==> !IsDictLike(args[i]))
    ensures isExtractor ==>
              forall i :: 0 <= i < |args| && IsDictLike(args[i]) && (forall j :: i < j < |args| ==> !IsDictLike(args[j])) ==>
                r.calls[0].properties == Some(DictOf(args[i]))
  {
    var ops := MarkedContentOperands(args);
    TagIsLastName(args);
    PropertiesAreLastDictionary(args);
    if isExtractor then Processed([BeginMarkedContent(ops.0, ops.1)]) else Processed([])
  }

  /** With a tag and then a property list, as BDC's operands are written,
      the extractor receives exactly those two. */
  lemma BeginMarkedContentWellFormed(tag: string, properties: Dictionary)
    ensures BeginMarkedContentSequence([Name(tag), Dict(properties)], true).calls
            == [BeginMarkedContent(Some(tag), Some(properties))]
  {
    var args := [Name(tag), Dict(properties)];
    TagIsLastName(args);
    PropertiesAreLastDictionary(args);
  }
}

=== FILE: page.dfy ===
/** The per-page process of PDF/A-1 preflight: for the page on top of the
    validation path, seven sub-checks in a fixed order. Four of them hand
    the page's parts to other processes (recorded as events); the page
    itself is checked for a transparency group (section 6.4 of ISO 19005-1)
    and for a thumbnail and a content stream that can be read. */
module PageValidation {
  import opened Cos
  import opened Preflight

  const KeyThumb := "Thumb"
  const KeyGroup := "Group"
  const KeyS := "S"
  const TransparencyName := "Transparency"

  /** A colour space named in the page resources, with the errors its
      colour-space helper reports when validating it; `validation` is None
      when building the colour space fails with an I/O error. */
  datatype ColorSpaceEntry = ColorSpaceEntry(name: string, validation: Option<seq<ErrorCode>>)

  /** Replaying the page content stream: the errors the content-stream
      validator reports, and whether the replay ends without an I/O error. */
  datatype ContentReplay = ContentReplay(errors: seq<ErrorCode>, readable: bool)

  datatype Resources = Resources(dict: Dictionary, colorSpaces: seq<ColorSpaceEntry>)

  /** An entry of the page's annotation list. */
  datatype AnnotationEntry = AnnotationEntry(annotation: Dictionary) | OtherEntry

  datatype Page = Page(
    dict: Dictionary,
    resources: Option<Resources>,
    annotations: Option<seq<AnnotationEntry>>,   // None when reading the annotations fails with an I/O error
    thumbnailReadable: bool,                     // the thumbnail image can be built from its stream
    content: ContentReplay)

  /** What the validation path holds on top. */
  datatype PathTop = EmptyPath | PageOnTop(page: Page) | OtherOnTop

  /** validateActions: the page's additional actions go to the actions process. */
  function ValidateActions(page: Page): (r: Outcome<()>)
    ensures r == Outcome([], [Delegated(ActionsProcess, Dict(page.dict))], Ok(()))
  {
    Outcome([], [Delegated(ActionsProcess, Dict(page.dict))], Ok(()))
  }

  /** The annotations of an annotation list, in list order. */
  function AnnotationsOf(entries: seq<AnnotationEntry>): (r: seq<Dictionary>)
    ensures |r| <= |entries|
    ensures forall d :: d in r <==> AnnotationEntry(d) in entries
  {
    if |entries| == 0 then []
    else
      var rest := AnnotationsOf(entries[1..]);
      assert forall e :: e in entries <==> e == entries[0] || e in entries[1..];
      match entries[0]
      case AnnotationEntry(d) => [d] + rest
      case OtherEntry => rest
  }

  /** Filtering commutes with concatenation: annotations keep their order. */
  lemma {:induction false} AnnotationsOfAppend(a: seq<AnnotationEntry>, b: seq<AnnotationEntry>)
    ensures AnnotationsOf(a + b) == AnnotationsOf(a) + AnnotationsOf(b)
  {
    if |a| > 0 {
      assert (a + b)[0] == a[0] && (a + b)[1..] == a[1..] + b;
      AnnotationsOfAppend(a[1..], b);
    } else {
      assert a + b == b;
    }
  }

  /** validateAnnotation: one hand-over to the annotations process per
      annotation, in list order. An I/O error while reading the list is
      rethrown as a validation failure. */
  function ValidateAnnotations(page: Page): (r: Outcome<()>)
    ensures r.errors == []
    ensures r.result.Threw? <==> page.annotations.None?
    ensures r.result.Threw? ==> r.result.exc == ValidationFailure && r.events == []
    ensures page.annotations.Some? ==>
      var annots := AnnotationsOf(page.annotations.value);
      |r.events| == |annots| && forall i :: 0 <= i < |annots| ==> r.events[i] == Delegated(AnnotationsProcess, Dict(annots[i]))
  {
    match page.annotations
    case None => Outcome([], [], Threw(ValidationFailure))
    case Some(entries) =>
      var annots := AnnotationsOf(entries);
      Outcome([], seq(|annots|, i requires 0 <= i < |annots| => Delegated(AnnotationsProcess, Dict(annots[i]))), Ok(()))
  }

  /** The colour space can be built, so its helper validates it. */
  predicate Builds(e: ColorSpaceEntry) {
    e.validation.Some?
  }

  /** The colour spaces that could be built, in resource order. */
  function LoadedColorSpaces(entries: seq<ColorSpaceEntry>): (r: seq<Event>)
    ensures |r| <= |entries|
    ensures forall e :: e in r ==> e.ColorSpaceValidated?
    ensures forall i :: 0 <= i < |entries| && Builds(entries[i]) ==> ColorSpaceValidated(entries[i].name) in r
    ensures forall n :: ColorSpaceValidated(n) in r ==> exists i :: 0 <= i < |entries| && Builds(entries[i]) && entries[i].name == n
    ensures |entries| == 1 ==> r == if Builds(entries[0]) then [ColorSpaceValidated(entries[0].name)] else []
  {
    if |entries| == 0 then []
    else
      var rest := LoadedColorSpaces(entries[1..]);
      assert |entries| == 1 ==> rest == [];
      assert forall i :: 1 <= i < |entries| ==> entries[i] == entries[1..][i - 1];
      if Builds(entries[0]) then [ColorSpaceValidated(entries[0].name)] + rest else rest
  }

  /** The errors one colour space's helper reports; none when it cannot be
      built. */
  function HelperErrors(e: ColorSpaceEntry): seq<ErrorCode> {
    if Builds(e) then e.validation.value else []
  }

  /** The errors the helpers of the colour spaces that could be built
      report, in resource order. */
  function ColorSpaceErrors(entries: seq<ColorSpaceEntry>): (r: seq<ErrorCode>)
    ensures r == [] <==> forall i :: 0 <= i < |entries| && Builds(entries[i]) ==> entries[i].validation.value == []
    ensures forall i :: 0 <= i < |entries| && Builds(entries[i]) ==> multiset(entries[i].validation.value) <= multiset(r)
    ensures |entries| == 1 ==> r == if Builds(entries[0]) then entries[0].validation.value else []
  {
    if |entries| == 0 then []
    else
      var rest := ColorSpaceErrors(entries[1..]);
      var own := HelperErrors(entries[0]);
      assert |entries| == 1 ==> rest == [] && own + rest == own;
      assert forall i :: 1 <= i < |entries| ==> entries[i] == entries[1..][i - 1];
      assert multiset(own + rest) == multiset(own) + multiset(rest);
      own + rest
  }

  /** validateColorSpaces: each colour space that can be built is validated
      by its helper, which reports into the page's error list; an I/O error
      building one is swallowed and adds nothing. */
  function ValidateColorSpaces(page: Page): (r: Outcome<()>)
    ensures r.result.Ok?
    ensures page.resources.None? ==> r.events == [] && r.errors == []
    ensures page.resources.Some? ==>
      var entries := page.resources.value.colorSpaces;
      && (forall i :: 0 <= i < |entries| && Builds(entries[i]) ==> ColorSpaceValidated(entries[i].name) in r.events)
      && (forall n :: ColorSpaceValidated(n) in r.events ==> exists i :: 0 <= i < |entries| && Builds(entries[i]) && entries[i].name == n)
      && (r.errors == [] <==> forall i :: 0 <= i < |entries| && Builds(entries[i]) ==> entries[i].validation.value == [])
      && r.errors == ColorSpaceErrors(entries) && r.events == LoadedColorSpaces(entries)
  {
    match page.resources
    case None => Outcome([], [], Ok(()))
    case Some(res) => Outcome(ColorSpaceErrors(res.colorSpaces), LoadedColorSpaces(res.colorSpaces), Ok(()))
  }

  /** The colour spaces are validated one after the other: each helper runs
      once, in resource order, and its errors follow those of the colour
      spaces before it. */
  lemma {:induction false} ColorSpaceErrorsAppend(a: seq<ColorSpaceEntry>, b: seq<ColorSpaceEntry>)
    ensures ColorSpaceErrors(a + b) == ColorSpaceErrors(a) + ColorSpaceErrors(b)
  {
    if |a| > 0 {
      assert (a + b)[0] == a[0] && (a + b)[1..] == a[1..] + b;
      ColorSpaceErrorsAppend(a[1..], b);
      var own := HelperErrors(a[0]);
      assert ColorSpaceErrors(a + b) == own + ColorSpaceErrors(a[1..] + b);
      assert ColorSpaceErrors(a) == own + ColorSpaceErrors(a[1..]);
    } else {
      assert a + b == b;
    }
  }

  /** Each colour space that can be built is validated once, in resource
      order. */
  lemma {:induction false} LoadedColorSpacesAppend(a: seq<ColorSpaceEntry>, b: seq<ColorSpaceEntry>)
    ensures LoadedColorSpaces(a + b) == LoadedColorSpaces(a) + LoadedColorSpaces(b)
  {
    if |a| > 0 {
      assert (a + b)[0] == a[0] && (a + b)[1..] == a[1..] + b;
      LoadedColorSpacesAppend(a[1..], b);
    } else {
      assert a + b == b;
    }
  }

  /** A colour space that cannot be built adds neither an error nor a
      validation, wherever it stands. */
  lemma {:induction false} UnbuildableColorSpaceSwallowed(a: seq<ColorSpaceEntry>, name: string, b: seq<ColorSpaceEntry>)
    ensures ColorSpaceErrors(a + [ColorSpaceEntry(name, None)] + b) == ColorSpaceErrors(a + b)
    ensures LoadedColorSpaces(a + [ColorSpaceEntry(name, None)] + b) == LoadedColorSpaces(a + b)
  {
    if |a| == 0 {
      assert a + [ColorSpaceEntry(name, None)] + b == [ColorSpaceEntry(name, None)] + b;
      assert ([ColorSpaceEntry(name, None)] + b)[1..] == b;
      assert a + b == b;
    } else {
      var x := ColorSpaceEntry(name, None);
      assert (a + [x] + b)[0] == a[0] && (a + [x] + b)[1..] == a[1..] + [x] + b;
      assert (a + b)[0] == a[0] && (a + b)[1..] == a[1..] + b;
      UnbuildableColorSpaceSwallowed(a[1..], name, b);
    }
  }

  /** validateResources: the resources (null if the page has none) go to the
      resources process. */
  function ValidateResources(page: Page): (r: Outcome<()>)
    ensures r.errors == [] && r.result.Ok? && |r.events| == 1
    ensures r.events[0].Delegated? && r.events[0].process == ResourcesProcess
    ensures r.events[0].subject == if page.resources.Some? then Dict(page.resources.value.dict) else Null
  {
    var subject := match page.resources case Some(res) => Dict(res.dict) case None => Null;
    Outcome([], [Delegated(ResourcesProcess, subject)], Ok(()))
  }

  /** The Thumb entry with at most one reference followed. */
  function Thumbnail(page: Page, store: Store): Option<Obj> {
    match Item(page.dict, KeyThumb)
    case None => None
    case Some(t) => Some(if t.Ref? then Resolve(t, store) else t)
  }

  /** validateGraphicObjects: a thumbnail is handed to the graphics process,
      and one that cannot be read is one error. Whatever is not a stream
      fails the cast to a stream. */
  function ValidateGraphicObjects(page: Page, store: Store): (r: Outcome<()>)
    ensures !Has(page.dict, KeyThumb) ==> r == Outcome([], [], Ok(()))
    ensures r.result.Threw? <==> Thumbnail(page, store).Some? && !Thumbnail(page, store).value.Stream?
    ensures r.result.Threw? ==> r.result.exc == RuntimeFailure && r.errors == [] && r.events == []
    ensures r.errors == [GraphicInvalid] <==> Thumbnail(page, store).Some? && Thumbnail(page, store).value.Stream? && !page.thumbnailReadable
    ensures r.errors == [] || r.errors == [GraphicInvalid]
    ensures r.events == if r.errors == [] && r.result.Ok? && Has(page.dict, KeyThumb)
                        then [Delegated(GraphicProcess, Thumbnail(page, store).value)] else []
  {
    match Thumbnail(page, store)
    case None => Outcome([], [], Ok(()))
    case Some(thumb) =>
      if !thumb.Stream? then Outcome([], [], Threw(RuntimeFailure))
      else if !page.thumbnailReadable then Returns((), [GraphicInvalid])
      else Outcome([], [Delegated(GraphicProcess, thumb)], Ok(()))
  }

  /** Only one reference is followed: a Thumb that refers to another
      reference fails the cast, whatever the second reference points to. */
  lemma ThumbnailFollowsOneReference(page: Page, store: Store, k: ObjKey, k': ObjKey)
    requires Item(page.dict, KeyThumb) == Some(Ref(k)) && k in store && store[k] == Ref(k')
    ensures ValidateGraphicObjects(page, store).result == Threw(RuntimeFailure)
  {
  }

  /** A Thumb given by reference is checked as the object it refers to:
      the one reference is followed. */
  lemma ThumbnailByReference(page: Page, store: Store, k: ObjKey)
    requires k in store && !store[k].Ref?
    ensures ValidateGraphicObjects(page.(dict := page.dict[Named(KeyThumb) := Ref(k)]), store)
         == ValidateGraphicObjects(page.(dict := page.dict[Named(KeyThumb) := store[k]]), store)
  {
  }

  /** The page's Group is a dictionary whose S names a transparency group. */
  predicate IsTransparencyGroup(page: Page, store: Store) {
    var group := AsDictionary(Item(page.dict, KeyGroup), store);
    group.Some? && NameAsString(group.value, KeyS, store) == Some(TransparencyName)
  }

  /** validateGroupTransparency: PDF/A-1 forbids transparency groups. */
  function ValidateGroupTransparency(page: Page, store: Store): (r: Outcome<()>)
    ensures r.result.Ok? && r.events == []
    ensures r.errors == if IsTransparencyGroup(page, store) then [GraphicTransparencyGroup] else []
    ensures !Has(page.dict, KeyGroup) ==> r.errors == []
  {
    match AsDictionary(Item(page.dict, KeyGroup), store)
    case None => Returns((), [])
    case Some(group) =>
      if NameAsString(group, KeyS, store) == Some(TransparencyName) then Returns((), [GraphicTransparencyGroup])
      else Returns((), [])
  }

  /** validateContent: the content stream is replayed, its validator
      reporting into the page's error list; an I/O error ending the replay
      adds exactly one unknown error after those. */
  function ValidateContent(page: Page): (r: Outcome<()>)
    ensures r.result.Ok? && r.events == [ContentStreamValidated]
    ensures page.content.errors <= r.errors
    ensures |r.errors| == |page.content.errors| + (if page.content.readable then 0 else 1)
    ensures !page.content.readable ==> r.errors[|r.errors| - 1] == UnknownError
    ensures Count(r.errors, UnknownError) == Count(page.content.errors, UnknownError) + (if page.content.readable then 0 else 1)
  {
    var failure: seq<ErrorCode> := if page.content.readable then [] else [UnknownError];
    CountAppend(page.content.errors, failure, UnknownError);
    CountSingle(UnknownError, UnknownError);
    Outcome(page.content.errors + failure, [ContentStreamValidated], Ok(()))
  }

  /** The seven sub-checks of a page, in their fixed order. */
  function ValidatePageChecks(page: Page, store: Store): Outcome<()> {
    Then(ValidateActions(page),
    Then(ValidateAnnotations(page),
    Then(ValidateColorSpaces(page),
    Then(ValidateResources(page),
    Then(ValidateGraphicObjects(page, store),
    Then(ValidateGroupTransparency(page, store),
         ValidateContent(page)))))))
  }

  /** Nothing on the page throws. */
  predicate PageReadable(page: Page, store: Store) {
    page.annotations.Some? && (Thumbnail(page, store).Some? ==> Thumbnail(page, store).value.Stream?)
  }

  /** SinglePageValidationProcess.validate. */
  function Validate(top: PathTop, store: Store): (r: Outcome<()>)
    ensures top.EmptyPath? ==> r == Outcome([], [], Ok(()))
    ensures top.OtherOnTop? ==> r == Returns((), [PdfProcessingMissing])
    ensures top.PageOnTop? ==> r == ValidatePageChecks(top.page, store)
    ensures top.PageOnTop? ==> (r.result.Threw? <==> !PageReadable(top.page, store))
  {
    match top
    case EmptyPath => Outcome([], [], Ok(()))
    case OtherOnTop => Returns((), [PdfProcessingMissing])
    case PageOnTop(page) => ValidatePageChecks(page, store)
  }

  /** Seven checks run in sequence, none of the first six throwing: the
      errors and the trace are those of each check, in order. */
  lemma ThenSeven(o1: Outcome<()>, o2: Outcome<()>, o3: Outcome<()>, o4: Outcome<()>,
                  o5: Outcome<()>, o6: Outcome<()>, o7: Outcome<()>)
    requires o1.result.Ok? && o2.result.Ok? && o3.result.Ok? && o4.result.Ok? && o5.result.Ok? && o6.result.Ok?
    ensures var r := Then(o1, Then(o2, Then(o3, Then(o4, Then(o5, Then(o6, o7))))));
      && r.result == o7.result
      && r.errors == o1.errors + o2.errors + o3.errors + o4.errors + o5.errors + o6.errors + o7.errors
      && r.events == o1.events + o2.events + o3.events + o4.events + o5.events + o6.events + o7.events
  {
    var r6 := Then(o6, o7);
    var r5 := Then(o5, r6);
    var r4 := Then(o4, r5);
    var r3 := Then(o3, r4);
    var r2 := Then(o2, r3);
    assert r2.errors == o2.errors + (o3.errors + (o4.errors + (o5.errors + (o6.errors + o7.errors))));
    assert r2.events == o2.events + (o3.events + (o4.events + (o5.events + (o6.events + o7.events))));
  }

  /** On a readable page every sub-check runs, in the order actions,
      annotations, colour spaces, resources, graphics, group, content: the
      trace shows each hand-over in that order. */
  lemma AllPageChecksRun(page: Page, store: Store)
    requires PageReadable(page, store)
    ensures var r := Validate(PageOnTop(page), store);
      && r.result.Ok?
      && r.events[0] == Delegated(ActionsProcess, Dict(page.dict))
      && r.events[|r.events| - 1] == ContentStreamValidated
      && r.events == [Delegated(ActionsProcess, Dict(page.dict))] + ValidateAnnotations(page).events
                     + ValidateColorSpaces(page).events + ValidateResources(page).events
                     + ValidateGraphicObjects(page, store).events + [ContentStreamValidated]
  {
    var a := ValidateActions(page);
    var n := ValidateAnnotations(page);
    var c := ValidateColorSpaces(page);
    var s := ValidateResources(page);
    var g := ValidateGraphicObjects(page, store);
    var t := ValidateGroupTransparency(page, store);
    var k := ValidateContent(page);
    ThenSeven(a, n, c, s, g, t, k);
    assert t.events == [];
    assert a.events + n.events + c.events + s.events + g.events + t.events + k.events
        == a.events + n.events + c.events + s.events + g.events + k.events;
  }

  /** On a readable page the errors are those of the colour-space helpers,
      the thumbnail, the group and the content replay, in that order; the
      actions, annotations and resources hand-overs add none here. */
  lemma ReadablePageErrors(page: Page, store: Store)
    requires PageReadable(page, store)
    ensures Validate(PageOnTop(page), store).errors == ValidateColorSpaces(page).errors
              + ValidateGraphicObjects(page, store).errors + ValidateGroupTransparency(page, store).errors
              + ValidateContent(page).errors
  {
    var a := ValidateActions(page);
    var n := ValidateAnnotations(page);
    var c := ValidateColorSpaces(page);
    var s := ValidateResources(page);
    var g := ValidateGraphicObjects(page, store);
    var t := ValidateGroupTransparency(page, store);
    var k := ValidateContent(page);
    ThenSeven(a, n, c, s, g, t, k);
    assert a.errors + n.errors + c.errors + s.errors == c.errors by {
      assert a.errors == [] && n.errors == [] && s.errors == [];
    }
  }

  /** A transparency group yields exactly one transparency error from the
      page's own group check; any other comes from a colour-space helper or
      the content-stream validator. */
  lemma TransparencyGroupReportedOnce(page: Page, store: Store)
    requires PageReadable(page, store)
    ensures Count(Validate(PageOnTop(page), store).errors, GraphicTransparencyGroup)
            == (if IsTransparencyGroup(page, store) then 1 else 0)
               + Count(ValidateColorSpaces(page).errors, GraphicTransparencyGroup)
               + Count(page.content.errors, GraphicTransparencyGroup)
  {
    ReadablePageErrors(page, store);
    var x := GraphicTransparencyGroup;
    var c := ValidateColorSpaces(page).errors;
    var g := ValidateGraphicObjects(page, store).errors;
    var t := ValidateGroupTransparency(page, store).errors;
    var k := ValidateContent(page).errors;
    CountAppend(c, g, x);
    CountAppend(c + g, t, x);
    CountAppend(c + g + t, k, x);
    CountSingle(GraphicInvalid, x);
    CountSingle(x, x);
    var failure: seq<ErrorCode> := if page.content.readable then [] else [UnknownError];
    assert k == page.content.errors + failure;
    CountAppend(page.content.errors, failure, x);
    CountSingle(UnknownError, x);
  }
}

=== FILE: pagetree.dfy ===
/** The page-tree process of PDF/A preflight: the catalog must name a page
    tree, and then every page is handed to the per-page process in order,
    with the context's current page number set while it is checked. Whatever
    a page's validation throws propagates out of the loop unchanged. */
module PageTreeValidation {
  import opened Cos
  import opened Preflight

  const KeyPages := "Pages"

  /** The first page whose validation throws, and what it throws: a
      validation failure or a runtime failure such as a failed cast. */
  datatype PageFailure = PageFailure(index: nat, exc: Exception)

  datatype PageTreeDocument = PageTreeDocument(
    catalog: Option<Dictionary>,   // None when the document has no catalog
    store: Store,
    pageCount: nat,
    failingPage: Option<PageFailure>)

  /** The part of the preflight context this process touches. */
  datatype Context = Context(errors: seq<ErrorCode>, events: seq<Event>, currentPage: Option<int>)

  /** The catalog's Pages entry, references resolved, is a dictionary. */
  predicate HasPageTree(catalog: Dictionary, store: Store) {
    var pages := DictionaryObject(catalog, KeyPages, store);
    pages.Some? && IsDictLike(pages.value)
  }

  /** Pages 0 .. n-1 handed over in order, each while it is the current page. */
  function PageVisits(n: nat): (r: seq<Event>)
    ensures |r| == n
    ensures forall j :: 0 <= j < n ==> r[j].PageValidated? && r[j].index == j && r[j].currentPage == Some(j)
  {
    seq(n, j requires 0 <= j < n => PageValidated(j, Some(j)))
  }

  /** The index the page loop stops at: the failing page, or the page count. */
  function StopIndex(doc: PageTreeDocument): (k: nat)
    ensures k <= doc.pageCount
    ensures k < doc.pageCount <==> doc.failingPage.Some? && doc.failingPage.value.index < doc.pageCount
    ensures k < doc.pageCount ==> k == doc.failingPage.value.index
  {
    if doc.failingPage.Some? && doc.failingPage.value.index < doc.pageCount then doc.failingPage.value.index else doc.pageCount
  }

  /** PageTreeValidationProcess.validate. */
  method Validate(doc: PageTreeDocument, ctx: Context) returns (c: Context, res: Result<()>)
    ensures doc.catalog.None? ==> c == ctx.(errors := ctx.errors + [SyntaxNoCatalog]) && res.Ok?
    ensures doc.catalog.Some? && !HasPageTree(doc.catalog.value, doc.store) ==>
              c == ctx.(errors := ctx.errors + [PdfProcessingMissing]) && res.Ok?
    ensures doc.catalog.Some? && HasPageTree(doc.catalog.value, doc.store) ==>
              var stop := StopIndex(doc);
              && c.errors == ctx.errors
              && (res.Threw? <==> stop < doc.pageCount)
              && (res.Threw? ==> res.exc == doc.failingPage.value.exc && c.events == ctx.events + PageVisits(stop + 1)
                                 && c.currentPage == Some(stop))
              && (res.Ok? ==> c.events == ctx.events + PageVisits(doc.pageCount)
                              && c.currentPage == if doc.pageCount == 0 then ctx.currentPage else None)
  {
    if doc.catalog.None? {
      return ctx.(errors := ctx.errors + [SyntaxNoCatalog]), Ok(());
    }
    if !HasPageTree(doc.catalog.value, doc.store) {
      return ctx.(errors := ctx.errors + [PdfProcessingMissing]), Ok(());
    }
    c := ctx;
    var i := 0;
    while i < doc.pageCount
      invariant 0 <= i <= doc.pageCount
      invariant i <= StopIndex(doc)
      invariant c.errors == ctx.errors
      invariant c.events == ctx.events + PageVisits(i)
      invariant c.currentPage == if i == 0 then ctx.currentPage else None
    {
      c := c.(currentPage := Some(i));
      c := c.(events := c.events + [PageValidated(i, c.currentPage)]);
      assert PageVisits(i + 1) == PageVisits(i) + [PageValidated(i, Some(i))];
      if doc.failingPage.Some? && doc.failingPage.value.index == i {
        return c, Threw(doc.failingPage.value.exc);
      }
      c := c.(currentPage := None);
      i := i + 1;
    }
    res := Ok(());
  }
}

=== FILE: preflight.dfy ===
/** What a preflight check leaves behind: the error codes it appends to the
    context's error list, the sub-validations it delegates (recorded as trace
    events, since their own rules are not part of this model), and how it
    ends, returning a value or throwing. */
module Preflight {
  import opened Cos

  /** Error codes of the PDF/A-1 rule set, named after their constants. */
  datatype ErrorCode =
    | SyntaxTrailer
    | SyntaxTrailerIdConsistency
    | SyntaxTrailerMissingId
    | SyntaxTrailerMissingSize
    | SyntaxTrailerMissingRoot
    | SyntaxTrailerTypeInvalid
    | SyntaxTrailerEncrypt
    | SyntaxDictionaryKeyInvalid
    | SyntaxDictInvalid
    | SyntaxNoCatalog
    | AnnotMissingFields
    | AnnotForbiddenFlag
    | AnnotForbiddenColor
    | AnnotInvalidApContent
    | AnnotMissingApNContent
    | AnnotInvalidCa
    | ActionMissingKey
    | ActionInvalidType
    | PdfProcessingMissing
    | GraphicInvalid
    | GraphicTransparencyGroup
    | UnknownError

  /** The processes of the preflight configuration that
      `ContextHelper.validateElement` dispatches to. */
  datatype Process = ActionsProcess | AnnotationsProcess | GraphicProcess | ResourcesProcess | PageProcess

  datatype Event =
    | Delegated(process: Process, subject: Obj)     // ContextHelper.validateElement
    | SpecificFieldsChecked                         // the subtype's mandatory-field hook was consulted
    | PopupValidated(popup: Dictionary)             // the popup's own annotation validator ran
    | ColorSpaceValidated(name: string)             // a colour-space helper ran
    | ContentStreamValidated                        // the page content stream was replayed
    | PageValidated(index: int, currentPage: Option<int>)

  /** Exceptions that leave a check: `RuntimeFailure` for the unchecked
      ones (a failed cast, a null dereference), `ValidationFailure` for a
      ValidationException. */
  datatype Exception = RuntimeFailure | ValidationFailure

  datatype Result<+T> = Ok(value: T) | Threw(exc: Exception)

  datatype Outcome<+T> = Outcome(errors: seq<ErrorCode>, events: seq<Event>, result: Result<T>)

  /** A check that returns `ok` after appending `errors` and nothing else. */
  function Returns<T>(value: T, errors: seq<ErrorCode>): (r: Outcome<T>)
    ensures r.result == Ok(value) && r.errors == errors && r.events == []
  {
    Outcome(errors, [], Ok(value))
  }

  /** Runs `next` after `first` unless `first` threw, in which case the run
      stops where `first` left it. */
  function Then(first: Outcome<()>, next: Outcome<()>): (r: Outcome<()>)
    ensures first.result.Threw? ==> r == first
    ensures first.result.Ok? ==> r.errors == first.errors + next.errors && r.events == first.events + next.events
                                 && r.result == next.result
  {
    if first.result.Threw? then first
    else Outcome(first.errors + next.errors, first.events + next.events, next.result)
  }

  /** Number of occurrences of `e` in `errors`. */
  function Count(errors: seq<ErrorCode>, e: ErrorCode): (n: nat)
    ensures n <= |errors|
    ensures n == 0 <==> e !in errors
  {
    if |errors| == 0 then 0
    else (if errors[0] == e then 1 else 0) + Count(errors[1..], e)
  }

  lemma {:induction false} CountAppend(a: seq<ErrorCode>, b: seq<ErrorCode>, e: ErrorCode)
    ensures Count(a + b, e) == Count(a, e) + Count(b, e)
  {
    if |a| == 0 {
      assert a + b == b;
    } else {
      assert (a + b)[1..] == a[1..] + b;
      CountAppend(a[1..], b, e);
    }
  }

  lemma Associate6(s1: seq<ErrorCode>, s2: seq<ErrorCode>, s3: seq<ErrorCode>,
                   s4: seq<ErrorCode>, s5: seq<ErrorCode>, s6: seq<ErrorCode>)
    ensures s1 + s2 + s3 + s4 + s5 + s6 == s1 + (s2 + s3 + s4 + s5 + s6)
  {
  }

  lemma InConcat5(x: ErrorCode, s1: seq<ErrorCode>, s2: seq<ErrorCode>, s3: seq<ErrorCode>,
                  s4: seq<ErrorCode>, s5: seq<ErrorCode>)
    ensures x in s1 + s2 + s3 + s4 + s5 <==> x in s1 || x in s2 || x in s3 || x in s4 || x in s5
  {
  }

  lemma InConcat6(x: ErrorCode, s1: seq<ErrorCode>, s2: seq<ErrorCode>, s3: seq<ErrorCode>,
                  s4: seq<ErrorCode>, s5: seq<ErrorCode>, s6: seq<ErrorCode>)
    ensures x in s1 + s2 + s3 + s4 + s5 + s6 <==> x in s1 || x in s2 || x in s3 || x in s4 || x in s5 || x in s6
  {
  }

  /** The number of occurrences in six concatenated lists is the sum. */
  lemma CountConcat6(s1: seq<ErrorCode>, s2: seq<ErrorCode>, s3: seq<ErrorCode>,
                     s4: seq<ErrorCode>, s5: seq<ErrorCode>, s6: seq<ErrorCode>, e: ErrorCode)
    ensures Count(s1 + s2 + s3 + s4 + s5 + s6, e)
            == Count(s1, e) + Count(s2, e) + Count(s3, e) + Count(s4, e) + Count(s5, e) + Count(s6, e)
  {
    CountAppend(s1, s2, e);
    CountAppend(s1 + s2, s3, e);
    CountAppend(s1 + s2 + s3, s4, e);
    CountAppend(s1 + s2 + s3 + s4, s5, e);
    CountAppend(s1 + s2 + s3 + s4 + s5, s6, e);
  }

  lemma CountSingle(x: ErrorCode, e: ErrorCode)
    ensures Count([x], e) == if x == e then 1 else 0
  {
    assert [x][1..] == [];
  }

}

=== FILE: trailer.dfy ===
/** The trailer / cross-reference consistency process of PDF/A-1 preflight
    (section 6.1.3 of ISO 19005-1): the trailer dictionary's keys and their
    types (section 7.5.5 of ISO 32000-1), the six keys of the linearization
    parameter dictionary (Annex F.2 of ISO 32000-1), and, for a linearized
    file, the agreement of the first and the last trailer's ID. */
module TrailerValidation {
  import opened Cos
  import opened Preflight

  const KeyId := "ID"
  const KeySize := "Size"
  const KeyRoot := "Root"
  const KeyPrev := "Prev"
  const KeyInfo := "Info"
  const KeyEncrypt := "Encrypt"
  const KeyLinearized := "Linearized"

  /** L, H, O, E, N and T: the keys every linearization dictionary carries. */
  const LinearizedKeys: seq<string> := ["L", "H", "O", "E", "N", "T"]

  /** The range of a Java `long`. */
  const LongMin: int := -0x8000_0000_0000_0000
  const LongMax: int := 0x7FFF_FFFF_FFFF_FFFF
  type Long = x: int | -0x8000_0000_0000_0000 <= x <= 0x7FFF_FFFF_FFFF_FFFF

  /** A cross-reference stream object: its byte offset in the file and its
      dictionary, which doubles as that revision's trailer. */
  datatype XrefStream = XrefStream(offset: Long, trailer: Dictionary)

  /** What the trailer process reads from the document. */
  datatype TrailerDocument = TrailerDocument(
    objects: seq<Obj>,                                // every object of the file, in list order
    store: Store,                                     // the object pool references resolve through
    version: int,                                     // header version in tenths: 14 for PDF 1.4
    trailer: Dictionary,                              // the current (last) trailer
    firstAndLast: Option<(Dictionary, Dictionary)>,   // the trailer resolver's first and last trailer
    xrefStreams: Option<seq<XrefStream>>)             // the XRef-typed objects; None when reading them fails

  // ---------------------------------------------------------------------
  // The trailer dictionary

  /** Errors for an entry the trailer must carry, with the given type. */
  function RequiredEntry(t: Dictionary, store: Store, key: string, kind: Kind, missing: ErrorCode): (r: seq<ErrorCode>)
    requires missing != SyntaxTrailerTypeInvalid
    ensures r == [] || r == [missing] || r == [SyntaxTrailerTypeInvalid]
    ensures r == [missing] <==> !Has(t, key)
    ensures r == [SyntaxTrailerTypeInvalid] <==> Mistyped(t, store, key, kind)
  {
    if !Has(t, key) then [missing]
    else if !IsKind(t[Named(key)], store, kind) then [SyntaxTrailerTypeInvalid]
    else []
  }

  /** Errors for an entry the trailer may carry, with the given type. */
  function OptionalEntry(t: Dictionary, store: Store, key: string, kind: Kind): (r: seq<ErrorCode>)
    ensures r == [] || r == [SyntaxTrailerTypeInvalid]
    ensures r == [SyntaxTrailerTypeInvalid] <==> Mistyped(t, store, key, kind)
  {
    if Has(t, key) && !IsKind(t[Named(key)], store, kind) then [SyntaxTrailerTypeInvalid] else []
  }

  /** An entry that is present but of the wrong type. */
  predicate Mistyped(t: Dictionary, store: Store, key: string, kind: Kind) {
    Has(t, key) && !IsKind(t[Named(key)], store, kind)
  }

  /** The typed trailer entries, with the type each must have. */
  const TypedEntries: seq<(string, Kind)> :=
    [(KeyId, ArrayKind), (KeySize, IntegerKind), (KeyRoot, DictionaryKind), (KeyPrev, IntegerKind), (KeyInfo, DictionaryKind)]

  /** How many of the given entries are present with the wrong type. */
  function MistypedCount(t: Dictionary, store: Store, entries: seq<(string, Kind)>): nat
  {
    if |entries| == 0 then 0
    else (if Mistyped(t, store, entries[0].0, entries[0].1) then 1 else 0) + MistypedCount(t, store, entries[1..])
  }

  /** Some typed entry is present with the wrong type. */
  predicate AnyMistyped(t: Dictionary, store: Store) {
    || Mistyped(t, store, KeyId, ArrayKind)
    || Mistyped(t, store, KeySize, IntegerKind)
    || Mistyped(t, store, KeyRoot, DictionaryKind)
    || Mistyped(t, store, KeyPrev, IntegerKind)
    || Mistyped(t, store, KeyInfo, DictionaryKind)
  }

  /** A trailer the PDF/A-1 rules accept: name keys only; ID an array, Size
      an integer and Root a dictionary, all three present; no Encrypt; Prev an
      integer and Info a dictionary when present. */
  predicate ConformingTrailer(t: Dictionary, store: Store) {
    && AllKeysNamed(t)
    && Has(t, KeyId) && Has(t, KeySize) && Has(t, KeyRoot)
    && !Has(t, KeyEncrypt)
    && !AnyMistyped(t, store)
  }

  /** The checks of checkMainTrailer once every key is known to be a name,
      in the order the source runs them. */
  function TrailerEntryErrors(t: Dictionary, store: Store): seq<ErrorCode>
  {
    RequiredEntry(t, store, KeyId, ArrayKind, SyntaxTrailerMissingId)
    + (if Has(t, KeyEncrypt) then [SyntaxTrailerEncrypt] else [])
    + RequiredEntry(t, store, KeySize, IntegerKind, SyntaxTrailerMissingSize)
    + RequiredEntry(t, store, KeyRoot, DictionaryKind, SyntaxTrailerMissingRoot)
    + OptionalEntry(t, store, KeyPrev, IntegerKind)
    + OptionalEntry(t, store, KeyInfo, DictionaryKind)
  }

  /** checkMainTrailer: the errors the trailer dictionary `t` produces. A
      key that is not a name aborts the check with a single error. */
  function CheckMainTrailer(t: Dictionary, store: Store): (errors: seq<ErrorCode>)
    ensures errors == [] <==> ConformingTrailer(t, store)
    ensures !AllKeysNamed(t) ==> errors == [SyntaxDictionaryKeyInvalid]
    ensures SyntaxTrailerIdConsistency !in errors && SyntaxTrailer !in errors
    ensures |errors| <= 6
  {
    if !AllKeysNamed(t) then [SyntaxDictionaryKeyInvalid]
    else TrailerEntryErrors(t, store)
  }

  /** Each mandatory key has its own missing-key error, Encrypt its own
      error, and a type error appears exactly when some entry is mistyped. */
  lemma TrailerErrorsByKey(t: Dictionary, store: Store)
    requires AllKeysNamed(t)
    ensures var errors := CheckMainTrailer(t, store);
      && SyntaxDictionaryKeyInvalid !in errors
      && (SyntaxTrailerMissingId in errors <==> !Has(t, KeyId))
      && (SyntaxTrailerMissingSize in errors <==> !Has(t, KeySize))
      && (SyntaxTrailerMissingRoot in errors <==> !Has(t, KeyRoot))
      && (SyntaxTrailerEncrypt in errors <==> Has(t, KeyEncrypt))
      && (SyntaxTrailerTypeInvalid in errors <==> AnyMistyped(t, store))
  {
  }

  /** 1 for an entry that is present with the wrong type, 0 otherwise. */
  function MistypedBit(t: Dictionary, store: Store, key: string, kind: Kind): nat
  {
    if Mistyped(t, store, key, kind) then 1 else 0
  }

  lemma MistypedCountOfTypedEntries(t: Dictionary, store: Store)
    ensures MistypedCount(t, store, TypedEntries) ==
      MistypedBit(t, store, KeyId, ArrayKind) + MistypedBit(t, store, KeySize, IntegerKind)
      + MistypedBit(t, store, KeyRoot, DictionaryKind) + MistypedBit(t, store, KeyPrev, IntegerKind)
      + MistypedBit(t, store, KeyInfo, DictionaryKind)
  {
    var te := TypedEntries;
    assert MistypedCount(t, store, te[4..]) == MistypedBit(t, store, KeyInfo, DictionaryKind) by {
      assert te[4..][1..] == [];
    }
    assert MistypedCount(t, store, te[3..]) == MistypedBit(t, store, KeyPrev, IntegerKind) + MistypedCount(t, store, te[4..]) by {
      assert te[3..][1..] == te[4..];
    }
    assert MistypedCount(t, store, te[2..]) == MistypedBit(t, store, KeyRoot, DictionaryKind) + MistypedCount(t, store, te[3..]) by {
      assert te[2..][1..] == te[3..];
    }
    assert MistypedCount(t, store, te[1..]) == MistypedBit(t, store, KeySize, IntegerKind) + MistypedCount(t, store, te[2..]) by {
      assert te[1..][1..] == te[2..];
    }
  }

  /** A mandatory entry contributes one type error iff it is mistyped. */
  lemma TypeErrorsOfRequiredEntry(t: Dictionary, store: Store, key: string, kind: Kind, missing: ErrorCode)
    requires missing != SyntaxTrailerTypeInvalid
    ensures Count(RequiredEntry(t, store, key, kind, missing), SyntaxTrailerTypeInvalid) == MistypedBit(t, store, key, kind)
  {
    CountSingle(missing, SyntaxTrailerTypeInvalid);
    CountSingle(SyntaxTrailerTypeInvalid, SyntaxTrailerTypeInvalid);
  }

  /** An optional entry contributes one type error iff it is mistyped. */
  lemma TypeErrorsOfOptionalEntry(t: Dictionary, store: Store, key: string, kind: Kind)
    ensures Count(OptionalEntry(t, store, key, kind), SyntaxTrailerTypeInvalid) == MistypedBit(t, store, key, kind)
  {
    CountSingle(SyntaxTrailerTypeInvalid, SyntaxTrailerTypeInvalid);
  }

  /** Type errors are reported per key, never aggregated: a trailer with k
      present-but-mistyped entries yields exactly k type errors. */
  lemma TypeErrorsPerKey(t: Dictionary, store: Store)
    requires AllKeysNamed(t)
    ensures Count(CheckMainTrailer(t, store), SyntaxTrailerTypeInvalid) == MistypedCount(t, store, TypedEntries)
  {
    var a := RequiredEntry(t, store, KeyId, ArrayKind, SyntaxTrailerMissingId);
    var b: seq<ErrorCode> := if Has(t, KeyEncrypt) then [SyntaxTrailerEncrypt] else [];
    var c := RequiredEntry(t, store, KeySize, IntegerKind, SyntaxTrailerMissingSize);
    var d := RequiredEntry(t, store, KeyRoot, DictionaryKind, SyntaxTrailerMissingRoot);
    var e := OptionalEntry(t, store, KeyPrev, IntegerKind);
    var f := OptionalEntry(t, store, KeyInfo, DictionaryKind);
    var x := SyntaxTrailerTypeInvalid;
    assert CheckMainTrailer(t, store) == a + b + c + d + e + f;
    CountConcat6(a, b, c, d, e, f, x);
    TypeErrorsOfRequiredEntry(t, store, KeyId, ArrayKind, SyntaxTrailerMissingId);
    TypeErrorsOfRequiredEntry(t, store, KeySize, IntegerKind, SyntaxTrailerMissingSize);
    TypeErrorsOfRequiredEntry(t, store, KeyRoot, DictionaryKind, SyntaxTrailerMissingRoot);
    TypeErrorsOfOptionalEntry(t, store, KeyPrev, IntegerKind);
    TypeErrorsOfOptionalEntry(t, store, KeyInfo, DictionaryKind);
    assert Count(b, x) == 0 by {
      CountSingle(SyntaxTrailerEncrypt, x);
    }
    MistypedCountOfTypedEntries(t, store);
  }

  /** The scenario of a trailer missing both ID and Size: two separate
      errors, the ID one first. */
  lemma MissingIdAndSizeReportedSeparately(t: Dictionary, store: Store)
    requires AllKeysNamed(t) && !Has(t, KeyId) && !Has(t, KeySize)
    ensures var errors := CheckMainTrailer(t, store);
      |errors| >= 2 && errors[0] == SyntaxTrailerMissingId && SyntaxTrailerMissingSize in errors[1..]
  {
    var a := RequiredEntry(t, store, KeyId, ArrayKind, SyntaxTrailerMissingId);
    var b: seq<ErrorCode> := if Has(t, KeyEncrypt) then [SyntaxTrailerEncrypt] else [];
    var c := RequiredEntry(t, store, KeySize, IntegerKind, SyntaxTrailerMissingSize);
    var d := RequiredEntry(t, store, KeyRoot, DictionaryKind, SyntaxTrailerMissingRoot);
    var e := OptionalEntry(t, store, KeyPrev, IntegerKind);
    var f := OptionalEntry(t, store, KeyInfo, DictionaryKind);
    var errors := CheckMainTrailer(t, store);
    assert errors == a + b + c + d + e + f;
    assert a == [SyntaxTrailerMissingId] && c == [SyntaxTrailerMissingSize];
    Associate6(a, b, c, d, e, f);
    assert errors[1..] == b + c + d + e + f;
    InConcat5(SyntaxTrailerMissingSize, b, c, d, e, f);
  }

  // ---------------------------------------------------------------------
  // The linearization dictionary

  /** An object that is a dictionary carrying the Linearized key. */
  predicate IsLinearizationDict(o: Obj) {
    IsDictLike(o) && Has(DictOf(o), KeyLinearized)
  }

  /** Position of the first linearization dictionary at or after `from`. */
  function LinearizedIndex(objects: seq<Obj>, from: nat): (r: Option<nat>)
    requires from <= |objects|
    ensures r.None? <==> forall j :: from <= j < |objects| ==> !IsLinearizationDict(objects[j])
    ensures r.Some? ==> from <= r.value < |objects| && IsLinearizationDict(objects[r.value])
    ensures r.Some? ==> forall j :: from <= j < r.value ==> !IsLinearizationDict(objects[j])
    decreases |objects| - from
  {
    if from == |objects| then None
    else if IsLinearizationDict(objects[from]) then Some(from)
    else LinearizedIndex(objects, from + 1)
  }

  /** getLinearizedDictionary: the first object, in list order, that is a
      dictionary with the Linearized key; nothing if there is none. */
  function LinearizedDictionary(objects: seq<Obj>): (r: Option<Dictionary>)
    ensures r.None? <==> forall j :: 0 <= j < |objects| ==> !IsLinearizationDict(objects[j])
    ensures r.Some? ==> exists i :: 0 <= i < |objects| && IsLinearizationDict(objects[i]) && r.value == DictOf(objects[i])
                          && forall j :: 0 <= j < i ==> !IsLinearizationDict(objects[j])
  {
    match LinearizedIndex(objects, 0)
    case None => None
    case Some(i) => Some(DictOf(objects[i]))
  }

  /** A linearization dictionary Annex F.2 of ISO 32000-1 accepts. */
  predicate ConformingLinearizedDictionary(d: Dictionary) {
    AllKeysNamed(d) && forall k :: k in LinearizedKeys ==> Has(d, k)
  }

  /** checkLinearizedDictionnary: one aggregated error however many of the six
      keys are missing; a non-name key is reported instead, on its own. */
  function CheckLinearizedDictionary(d: Dictionary): (errors: seq<ErrorCode>)
    ensures errors == [] <==> ConformingLinearizedDictionary(d)
    ensures !AllKeysNamed(d) ==> errors == [SyntaxDictionaryKeyInvalid]
    ensures AllKeysNamed(d) && errors != [] ==> errors == [SyntaxDictInvalid]
  {
    if !AllKeysNamed(d) then [SyntaxDictionaryKeyInvalid]
    else if Has(d, "L") && Has(d, "H") && Has(d, "O") && Has(d, "E") && Has(d, "T") && Has(d, "N") then []
    else [SyntaxDictInvalid]
  }

  // ---------------------------------------------------------------------
  // Comparing the IDs of the first and the last trailer

  /** The inner loop of compareIds: scan `last` for a string equal to `f`,
      stopping at the first match. Each scanned element and `f` are cast to
      strings, so a non-string among them throws. */
  function ScanLast(f: Obj, last: seq<Obj>): Result<bool>
  {
    if |last| == 0 then Ok(false)
    else if !last[0].Str? || !f.Str? then Threw(RuntimeFailure)
    else if last[0].s == f.s then Ok(true)
    else ScanLast(f, last[1..])
  }

  /** The outer loop of compareIds: every element of `first` must be found in
      `last`; the scan stops at the first element that is not. */
  function ContainsAll(first: seq<Obj>, last: seq<Obj>): Result<bool>
  {
    if |first| == 0 then Ok(true)
    else match ScanLast(first[0], last)
      case Threw(e) => Threw(e)
      case Ok(found) => if found then ContainsAll(first[1..], last) else Ok(false)
  }

  predicate AllStrings(s: seq<Obj>) {
    forall i :: 0 <= i < |s| ==> s[i].Str?
  }

  lemma {:induction false} ScanLastFinds(f: Obj, last: seq<Obj>)
    requires f.Str? && AllStrings(last)
    ensures ScanLast(f, last) == Ok(f in last)
  {
    if |last| > 0 {
      if last[0].s != f.s {
        ScanLastFinds(f, last[1..]);
        assert last == [last[0]] + last[1..];
      }
    }
  }

  /** On string IDs the comparison is set containment, first in last. */
  lemma {:induction false} ContainsAllIsInclusion(first: seq<Obj>, last: seq<Obj>)
    requires AllStrings(first) && AllStrings(last)
    ensures ContainsAll(first, last) == Ok(forall o :: o in first ==> o in last)
  {
    if |first| > 0 {
      ScanLastFinds(first[0], last);
      assert first == [first[0]] + first[1..];
      if first[0] in last {
        ContainsAllIsInclusion(first[1..], last);
      }
    }
  }

  /** The comparison ignores the order of either ID array. */
  lemma ContainsAllIgnoresOrder(first: seq<Obj>, last: seq<Obj>, first': seq<Obj>, last': seq<Obj>)
    requires AllStrings(first) && AllStrings(last) && AllStrings(first') && AllStrings(last')
    requires multiset(first) == multiset(first') && multiset(last) == multiset(last')
    ensures ContainsAll(first, last) == ContainsAll(first', last')
  {
    ContainsAllIsInclusion(first, last);
    ContainsAllIsInclusion(first', last');
    forall o ensures (o in first <==> o in first') && (o in last <==> o in last') {
      assert o in first <==> o in multiset(first);
      assert o in first' <==> o in multiset(first');
      assert o in last <==> o in multiset(last);
      assert o in last' <==> o in multiset(last');
    }
  }

  /** The ID entries of both trailers, read as arrays, hold strings only. */
  predicate StringIds(first: Dictionary, last: Dictionary, store: Store) {
    && (Has(first, KeyId) && AsArray(first[Named(KeyId)], store).Some? ==> AllStrings(AsArray(first[Named(KeyId)], store).value))
    && (Has(last, KeyId) && AsArray(last[Named(KeyId)], store).Some? ==> AllStrings(AsArray(last[Named(KeyId)], store).value))
  }

  /** The PDF/A-1 reading of ID consistency: when both trailers carry an ID,
      both are arrays and every component of the first occurs in the last. */
  predicate IdsAgree(first: Dictionary, last: Dictionary, store: Store) {
    !Has(first, KeyId) || !Has(last, KeyId) ||
    (var af := AsArray(first[Named(KeyId)], store);
     var al := AsArray(last[Named(KeyId)], store);
     af.Some? && al.Some? && forall o :: o in af.value ==> o in al.value)
  }

  /** compareIds. */
  function CompareIds(first: Dictionary, last: Dictionary, store: Store): (r: Result<bool>)
    ensures !Has(first, KeyId) || !Has(last, KeyId) ==> r == Ok(true)
    ensures Has(first, KeyId) && Has(last, KeyId)
            && (AsArray(first[Named(KeyId)], store).None? || AsArray(last[Named(KeyId)], store).None?)
            ==> r == Ok(false)
    ensures StringIds(first, last, store) ==> r == Ok(IdsAgree(first, last, store))
    ensures r.Threw? ==> r.exc == RuntimeFailure
  {
    match (Item(first, KeyId), Item(last, KeyId))
    case (Some(idFirst), Some(idLast)) =>
      (match (AsArray(idFirst, store), AsArray(idLast, store))
       case (Some(af), Some(al)) =>
         if AllStrings(af) && AllStrings(al) then ContainsAllIsInclusion(af, al); ContainsAll(af, al)
         else ContainsAllThrowsOnlyRuntime(af, al); ContainsAll(af, al)
       case _ => Ok(false))
    case _ => Ok(true)
  }

  lemma {:induction false} ContainsAllThrowsOnlyRuntime(first: seq<Obj>, last: seq<Obj>)
    ensures ContainsAll(first, last).Threw? ==> ContainsAll(first, last).exc == RuntimeFailure
  {
    if |first| > 0 {
      ScanLastThrowsOnlyRuntime(first[0], last);
      ContainsAllThrowsOnlyRuntime(first[1..], last);
    }
  }

  lemma {:induction false} ScanLastThrowsOnlyRuntime(f: Obj, last: seq<Obj>)
    ensures ScanLast(f, last).Threw? ==> ScanLast(f, last).exc == RuntimeFailure
  {
    if |last| > 0 {
      ScanLastThrowsOnlyRuntime(f, last[1..]);
    }
  }

  // ---------------------------------------------------------------------
  // First and last trailer

  /** The step both linearized paths share: check the first trailer, then
      compare its ID with the last trailer's, resolving references through
      `idStore`; a mismatch adds one ID-consistency error. */
  function CheckFirstAgainstLast(first: Dictionary, last: Dictionary, store: Store, idStore: Store): (r: Outcome<()>)
    ensures r.events == []
    ensures CheckMainTrailer(first, store) <= r.errors
    ensures |r.errors| <= |CheckMainTrailer(first, store)| + 1
    ensures Count(r.errors, SyntaxTrailerIdConsistency) <= 1
    ensures r.result.Threw? ==> r.errors == CheckMainTrailer(first, store)
    ensures StringIds(first, last, idStore) ==>
      r.result.Ok? && (SyntaxTrailerIdConsistency in r.errors <==> !IdsAgree(first, last, idStore))
    ensures !Has(first, KeyId) || !Has(last, KeyId) ==> r == Returns((), CheckMainTrailer(first, store))
    ensures Has(first, KeyId) && Has(last, KeyId)
            && (AsArray(first[Named(KeyId)], idStore).None? || AsArray(last[Named(KeyId)], idStore).None?)
            ==> r.result.Ok? && SyntaxTrailerIdConsistency in r.errors
  {
    var main := CheckMainTrailer(first, store);
    match CompareIds(first, last, idStore)
    case Threw(e) => Outcome(main, [], Threw(e))
    case Ok(same) =>
      var id: seq<ErrorCode> := if same then [] else [SyntaxTrailerIdConsistency];
      CountAppend(main, id, SyntaxTrailerIdConsistency);
      CountSingle(SyntaxTrailerIdConsistency, SyntaxTrailerIdConsistency);
      Returns((), main + id)
  }

  /** checkTrailersForLinearizedPDF14: without a first trailer, one syntax
      error; otherwise the first trailer against the last. The comparison is
      given a fresh, empty document, so IDs given by reference never resolve
      there. */
  function CheckTrailers14(doc: TrailerDocument): (r: Outcome<()>)
    ensures r.events == []
    ensures doc.firstAndLast.None? ==> r == Returns((), [SyntaxTrailer])
    ensures doc.firstAndLast.Some? ==>
      r == CheckFirstAgainstLast(doc.firstAndLast.value.0, doc.firstAndLast.value.1, doc.store, map[])
    ensures Count(r.errors, SyntaxTrailerIdConsistency) <= 1
  {
    match doc.firstAndLast
    case None => CountSingle(SyntaxTrailer, SyntaxTrailerIdConsistency); Returns((), [SyntaxTrailer])
    case Some((first, last)) => CheckFirstAgainstLast(first, last, doc.store, map[])
  }

  /** The ≤1.4 path never resolves an ID given by reference, so whenever
      both trailers carry an ID and either of them is a reference, the IDs
      read as inconsistent. */
  lemma IndirectIdIn14PathMismatches(doc: TrailerDocument)
    requires doc.firstAndLast.Some?
    requires var (first, last) := doc.firstAndLast.value;
      Has(first, KeyId) && Has(last, KeyId) && (first[Named(KeyId)].Ref? || last[Named(KeyId)].Ref?)
    ensures SyntaxTrailerIdConsistency in CheckTrailers14(doc).errors
  {
    var (first, last) := doc.firstAndLast.value;
    assert CompareIds(first, last, map[]) == Ok(false);
  }

  /** The state of the offset scan after the first `k` cross-reference
      streams: smallest and largest offset so far and where they were seen. */
  datatype Selection = Selection(min: int, max: int, first: Option<nat>, last: Option<nat>)

  /** The loop of checkTrailersForLinearizedPDF15, from the sentinels
      Long.MAX_VALUE and Long.MIN_VALUE; a strictly smaller (larger) offset
      replaces the first (last) trailer, so ties keep the earliest. */
  function Scan(xs: seq<XrefStream>, k: nat): Selection
    requires k <= |xs|
  {
    if k == 0 then Selection(LongMax, LongMin, None, None)
    else
      var s := Scan(xs, k - 1);
      var offset := xs[k - 1].offset;
      var s1 := if offset < s.min then s.(min := offset, first := Some(k - 1)) else s;
      if offset > s1.max then s1.(max := offset, last := Some(k - 1)) else s1
  }

  /** After `k` streams the first trailer is the earliest stream with the
      smallest offset below Long.MAX_VALUE, and is absent only if every
      offset so far equals Long.MAX_VALUE. */
  lemma {:induction false} ScanFirst(xs: seq<XrefStream>, k: nat)
    requires k <= |xs|
    ensures var s := Scan(xs, k);
      && (s.first.None? ==> s.min == LongMax && forall j :: 0 <= j < k ==> xs[j].offset == LongMax)
      && (s.first.Some? ==>
            && s.first.value < k && s.min == xs[s.first.value].offset < LongMax
            && (forall j :: 0 <= j < s.first.value ==> xs[j].offset > s.min)
            && (forall j :: 0 <= j < k ==> xs[j].offset >= s.min))
  {
    if k > 0 {
      ScanFirst(xs, k - 1);
    }
  }

  /** After `k` streams the last trailer is the earliest stream with the
      largest offset above Long.MIN_VALUE, and is absent only if every
      offset so far equals Long.MIN_VALUE. */
  lemma {:induction false} ScanLastRevision(xs: seq<XrefStream>, k: nat)
    requires k <= |xs|
    ensures var s := Scan(xs, k);
      && (s.last.None? ==> s.max == LongMin && forall j :: 0 <= j < k ==> xs[j].offset == LongMin)
      && (s.last.Some? ==>
            && s.last.value < k && s.max == xs[s.last.value].offset > LongMin
            && (forall j :: 0 <= j < s.last.value ==> xs[j].offset < s.max)
            && (forall j :: 0 <= j < k ==> xs[j].offset <= s.max))
  {
    if k > 0 {
      ScanLastRevision(xs, k - 1);
    }
  }

  /** `i` holds the strictly smallest offset, the earliest one on ties. */
  predicate IsFirstRevision(xs: seq<XrefStream>, i: nat) {
    i < |xs| && (forall j :: 0 <= j < i ==> xs[j].offset > xs[i].offset)
             && (forall j :: i < j < |xs| ==> xs[j].offset >= xs[i].offset)
  }

  /** `i` holds the strictly largest offset, the earliest one on ties. */
  predicate IsLastRevision(xs: seq<XrefStream>, i: nat) {
    i < |xs| && (forall j :: 0 <= j < i ==> xs[j].offset < xs[i].offset)
             && (forall j :: i < j < |xs| ==> xs[j].offset <= xs[i].offset)
  }

  /** Offsets a real file can have: from 0 up to, not including, Long.MAX_VALUE. */
  predicate FileOffsets(xs: seq<XrefStream>) {
    forall j :: 0 <= j < |xs| ==> 0 <= xs[j].offset < LongMax
  }

  /** For real offsets the scan selects the first and the last revision. */
  lemma SelectsExtremes(xs: seq<XrefStream>)
    requires |xs| > 0 && FileOffsets(xs)
    ensures Scan(xs, |xs|).first.Some? && IsFirstRevision(xs, Scan(xs, |xs|).first.value)
    ensures Scan(xs, |xs|).last.Some? && IsLastRevision(xs, Scan(xs, |xs|).last.value)
  {
    ScanFirst(xs, |xs|);
    ScanLastRevision(xs, |xs|);
    assert xs[0].offset < LongMax && xs[0].offset > LongMin;
  }

  /** checkTrailersForLinearizedPDF15. An I/O failure while reading the
      cross-reference streams is one syntax error; with no such stream the
      ≤1.4 path is taken. Otherwise the streams at the smallest and the
      largest offset are the first and the last trailer. A selection the
      sentinels leave empty is a null trailer, which the trailer check or the
      ID comparison dereferences. */
  function CheckTrailers15(doc: TrailerDocument): (r: Outcome<()>)
    ensures r.events == []
    ensures doc.xrefStreams.None? ==> r == Returns((), [SyntaxTrailer])
    ensures doc.xrefStreams == Some([]) ==> r == CheckTrailers14(doc)
    ensures Count(r.errors, SyntaxTrailerIdConsistency) <= 1
  {
    match doc.xrefStreams
    case None => CountSingle(SyntaxTrailer, SyntaxTrailerIdConsistency); Returns((), [SyntaxTrailer])
    case Some(xs) =>
      if |xs| == 0 then CheckTrailers14(doc)
      else
        ScanFirst(xs, |xs|);
        ScanLastRevision(xs, |xs|);
        var s := Scan(xs, |xs|);
        if s.first.None? then Outcome([], [], Threw(RuntimeFailure))
        else
          var first := xs[s.first.value].trailer;
          if s.last.None? then
            var main := CheckMainTrailer(first, doc.store);
            assert Count(main, SyntaxTrailerIdConsistency) == 0;
            Outcome(main, [], Threw(RuntimeFailure))
          else CheckFirstAgainstLast(first, xs[s.last.value].trailer, doc.store, doc.store)
  }

  /** For a file whose cross-reference streams sit at real offsets, the later
      path compares the stream at the smallest offset with the one at the
      largest, resolving references through the document. */
  lemma Trailers15ComparesExtremes(doc: TrailerDocument)
    requires doc.xrefStreams.Some? && |doc.xrefStreams.value| > 0 && FileOffsets(doc.xrefStreams.value)
    ensures var xs := doc.xrefStreams.value;
      exists i: nat, k: nat :: IsFirstRevision(xs, i) && IsLastRevision(xs, k)
        && CheckTrailers15(doc) == CheckFirstAgainstLast(xs[i].trailer, xs[k].trailer, doc.store, doc.store)
  {
    var xs := doc.xrefStreams.value;
    SelectsExtremes(xs);
    var s := Scan(xs, |xs|);
    assert IsFirstRevision(xs, s.first.value) && IsLastRevision(xs, s.last.value);
  }

  /** TrailerValidationProcess.validate. Without a linearization dictionary
      only the current trailer is checked; with one, the dictionary is
      checked and then the first and last trailers, by the ≤1.4 or the
      later path according to the header version. */
  function Validate(doc: TrailerDocument): (r: Outcome<()>)
    ensures r.events == []
    ensures LinearizedDictionary(doc.objects).None? ==> r == Returns((), CheckMainTrailer(doc.trailer, doc.store))
    ensures LinearizedDictionary(doc.objects).Some? ==>
      var lin := CheckLinearizedDictionary(LinearizedDictionary(doc.objects).value);
      var path := if doc.version <= 14 then CheckTrailers14(doc) else CheckTrailers15(doc);
      r.errors == lin + path.errors && r.result == path.result
  {
    match LinearizedDictionary(doc.objects)
    case None => Returns((), CheckMainTrailer(doc.trailer, doc.store))
    case Some(linearized) =>
      var lin := CheckLinearizedDictionary(linearized);
      var path := if doc.version <= 14 then CheckTrailers14(doc) else CheckTrailers15(doc);
      Outcome(lin + path.errors, path.events, path.result)
  }

  /** A run reports at most one ID-consistency error, and none at all for a
      file that is not linearized. */
  lemma AtMostOneIdConsistencyError(doc: TrailerDocument)
    ensures Count(Validate(doc).errors, SyntaxTrailerIdConsistency) <= 1
    ensures LinearizedDictionary(doc.objects).None? ==> SyntaxTrailerIdConsistency !in Validate(doc).errors
  {
    match LinearizedDictionary(doc.objects)
    case None =>
    case Some(linearized) =>
      var lin := CheckLinearizedDictionary(linearized);
      var path := if doc.version <= 14 then CheckTrailers14(doc) else CheckTrailers15(doc);
      CountAppend(lin, path.errors, SyntaxTrailerIdConsistency);
      if doc.version <= 14 && doc.firstAndLast.None? {
        assert path.errors == [SyntaxTrailer];
      }
  }
}

=== FILE: uriaction.dfy ===
/** The URI action check of PDF/A preflight: a URI action must carry a URI
    entry, and that entry must be a string. */
module UriActionValidation {
  import opened Cos
  import opened Preflight

  const KeyUri := "URI"

  /** The action's URI entry exists and is a string, references resolved. */
  predicate HasStringUri(action: Dictionary, store: Store) {
    Has(action, KeyUri) && IsKind(action[Named(KeyUri)], store, StringKind)
  }

  /** UriAction.innerValid: true iff the URI entry is a string; otherwise
      exactly one error saying whether the entry is missing or mistyped. */
  function InnerValid(action: Dictionary, store: Store): (r: Outcome<bool>)
    ensures r.result.Ok? && r.events == []
    ensures r.result.value <==> HasStringUri(action, store)
    ensures r.result.value <==> r.errors == []
    ensures !Has(action, KeyUri) ==> r.errors == [ActionMissingKey]
    ensures Has(action, KeyUri) && !HasStringUri(action, store) ==> r.errors == [ActionInvalidType]
  {
    match Item(action, KeyUri)
    case None => Returns(false, [ActionMissingKey])
    case Some(uri) =>
      if !IsKind(uri, store, StringKind) then Returns(false, [ActionInvalidType])
      else Returns(true, [])
  }

  /** A URI that is a reference to a string passes; one that is a name, or a
      reference to nothing, does not. */
  lemma UriKinds(action: Dictionary, store: Store, k: ObjKey)
    requires Has(action, KeyUri)
    ensures action[Named(KeyUri)] == Ref(k) && k in store && store[k].Str? ==> InnerValid(action, store).result.value
    ensures action[Named(KeyUri)] == Ref(k) && k !in store ==> InnerValid(action, store).errors == [ActionInvalidType]
    ensures action[Named(KeyUri)].Name? ==> InnerValid(action, store).errors == [ActionInvalidType]
  {
  }

  /** A URI given by reference is checked as the object it refers to. */
  lemma UriByReference(action: Dictionary, store: Store, k: ObjKey)
    requires k in store && !store[k].Ref?
    ensures InnerValid(action[Named(KeyUri) := Ref(k)], store) == InnerValid(action[Named(KeyUri) := store[k]], store)
  {
  }
}
